=== FILE: README.md ===
# Selenium test runner: statement composition and resource fallback

A Dafny model of two pieces of Selenium's Java code.

**`SeleniumTestRunner`** is the JUnit runner of the Selenium test suite. For each test method,
`methodBlock` wraps the framework's statement in up to four behaviours:

- `withNoDriverAfterTest`: remove the shared driver afterwards, on every exit path.
- `withFreshDriver`: remove the driver and create a new one first.
- `coveringUpSauceErrors`: re-run the statement once after a failure whose message names Sauce,
  with a recreated driver.
- `withNotYetImplemented`: invert pass and fail for a test that is declared broken on the
  current browser.

The model is a deep embedding:

- `Statements.Statement` is a datatype with one constructor per wrapper. `Stages` is the opaque
  composition of the JUnit stages (invoker, expected exceptions, timeout, befores, afters, rules).
- `Statements.Eval` gives the meaning of one evaluation. It returns the outcome (pass, or the
  `Failures.Throwable` thrown) and the trace of events it emitted: `Remove`, `Create(ok)`,
  and `Evaluate` (one run of the stages).
- An `Oracle` supplies the outcome of the n-th evaluation of the stages and the result of the
  n-th driver creation. The retry re-evaluates the same statement, so each attempt may differ.
- `Drivers` holds the `@NotYetImplemented` tag policy: the per-tag predicate `TagMatches`, and
  the source's loop with its running flag (`SwitchArm`, `ScanTags`).
- `TestRunner` builds `methodBlock` and proves properties of the whole chain.
- `Guarantees` proves, by induction over any statement, three things: the bound on evaluations,
  that no driver is left behind, and that every retried evaluation runs on a newly created driver.

**`ResourceLoader.load`** looks a resource up by name. If that fails and the name contains
`/defaults/`, it looks up the part of the name that begins right after the leading slash of the
first `/defaults/`, so it begins with `defaults/`. The class loader is a
set of names it resolves.

Several details of the Java code are easy to misread; the model follows the code:

- The not-yet-implemented inversion is the OUTERMOST wrapper (line 101 runs after line 99). So the
  inversion sees the outcome after any Sauce retry; the retry never sees an inverted outcome
  (`TestRunner.InversionIsOutermost`, `TestRunner.RetriedPassIsSeenByInversion`).
- The Sauce check is `contains("sauce") || contains("Sauce")` and nothing else. `"SAUCE"` is not
  retried (`TestRunner.UpperCaseSauceIsNotTransient`).
- A non-Sauce failure goes through Guava's `Throwables.propagate`. An unchecked exception or an
  error leaves unchanged; a checked exception leaves wrapped in a `RuntimeException`
  (`Failures.Propagate`).
- A creation failure during recovery is caught by `catch (Exception e)`. So an `Error`, or any
  other throwable that is not an `Exception`, escapes unwrapped (`Failures.RecoveryFailure`).
- `withNoDriverAfterTest` sits inside `withFreshDriver`, and both sit inside the Sauce retry. So
  when the fresh driver cannot be created with an error that does not name Sauce, no removal
  follows and the error leaves through `Throwables.propagate`
  (`TestRunner.FreshCreationFailureIsNotFollowedByRemoval`). A creation error that does name Sauce
  is itself retried (`TestRunner.SauceNamedCreationFailureIsRetried`).
- Only a `JUnit4TestBase` instance gets the lifecycle and retry wrappers. Any other instance
  (including the `null` left by a failed `createTest`) runs the stages exactly once.

## Model

| member | source | states |
|---|---|---|
| Strings.IndexFrom | java/server/src/org/openqa/grid/internal/utils/ResourceLoader.java:30 | the result is the first index at or after `from` where the pattern occurs; `None` means it occurs nowhere from there |
| Strings.ContainsIff | java/server/src/org/openqa/grid/internal/utils/ResourceLoader.java:29 | `contains` holds exactly when the pattern occurs at some index |
| Drivers.ResolveBrowser | java/client/test/org/openqa/selenium/testing/SeleniumTestRunner.java:57-60 | a detected browser is kept; with none detected, dev mode substitutes `ff`; the browser stays `null` only when nothing was detected outside dev mode |
| Drivers.BrowserName | java/client/test/org/openqa/selenium/testing/SeleniumTestRunner.java:196-197 | the text `+ browser` produces; the contract fixes "null" for an unresolved browser, while the constructor names (the enum constants' names) are a table in the body, which `Drivers.BrowserNameIdentifies` shows tells browsers apart |
| Drivers.BrowserNameIdentifies | java/client/test/org/openqa/selenium/testing/SeleniumTestRunner.java:196-197 | two browsers (or `null`) that print the same name are the same, so the message names the browser unambiguously |
| Drivers.TagMatches | java/client/test/org/openqa/selenium/testing/SeleniumTestRunner.java:215-255 | no contract of its own: the reference per-tag predicate that `Drivers.SwitchArm`, `Drivers.ScanTags` and `Drivers.IsNotYetImplemented` are proved against |
| Drivers.SwitchArm | java/client/test/org/openqa/selenium/testing/SeleniumTestRunner.java:215-258 | while the flag is still false, each switch arm sets it to exactly that tag's predicate; `FIREFOX`/`MARIONETTE` with their guard false leave it false |
| Drivers.ScanTags | java/client/test/org/openqa/selenium/testing/SeleniumTestRunner.java:213-260 | the loop's final flag is true iff it started true or some tag in the remaining list matches |
| Drivers.IsNotYetImplemented | java/client/test/org/openqa/selenium/testing/SeleniumTestRunner.java:209-262 | false with no annotation or an empty tag list; otherwise true iff some declared tag matches the configuration |
| Drivers.MatchIsNeverReset | java/client/test/org/openqa/selenium/testing/SeleniumTestRunner.java:213-214 | once a tag matched, appending any tags keeps the method marked |
| Drivers.OnlyTheDeclaredSetMatters | java/client/test/org/openqa/selenium/testing/SeleniumTestRunner.java:213-260 | two tag lists with the same members give the same answer, whatever the order or duplicates |
| Drivers.FirefoxAndMarionetteExclusive | java/client/test/org/openqa/selenium/testing/SeleniumTestRunner.java:224-242 | `FIREFOX` and `MARIONETTE` never both match; on `ff` exactly one of them does |
| Drivers.HtmlunitCoversBothVariants | java/client/test/org/openqa/selenium/testing/SeleniumTestRunner.java:230-232 | `HTMLUNIT` matches exactly the `htmlunit` and `htmlunit_js` browsers |
| Drivers.RemoteIgnoresBrowser | java/client/test/org/openqa/selenium/testing/SeleniumTestRunner.java:248-250 | `REMOTE` matches iff the remote property or Sauce is on, independent of browser and marionette flag |
| Drivers.AllAlwaysMatches | java/client/test/org/openqa/selenium/testing/SeleniumTestRunner.java:216-218 | a list containing `ALL` marks the test under every configuration |
| Failures.Propagate | java/client/test/org/openqa/selenium/testing/SeleniumTestRunner.java:130 | a `RuntimeException` or `Error` passes unchanged; anything else becomes a `RuntimeException` whose message is the original's `toString()` and whose cause is the original |
| Failures.RecoveryFailure | java/client/test/org/openqa/selenium/testing/SeleniumTestRunner.java:124-127 | an `Exception` from driver creation is wrapped with the recovery message, with it as cause; an `Error` or other throwable escapes as it is |
| Statements.IsSauceFailure | java/client/test/org/openqa/selenium/testing/SeleniumTestRunner.java:121-122 | a failure is transient iff its message is non-null and "sauce" or "Sauce" occurs in it at some index |
| Statements.AlreadyWorks | java/client/test/org/openqa/selenium/testing/SeleniumTestRunner.java:196 | the thrown `new Exception(message)`: a checked exception carrying exactly that message |
| Statements.DealWithSauceFailure | java/client/test/org/openqa/selenium/testing/SeleniumTestRunner.java:120-132 | no driver event and a propagated rethrow for a non-Sauce or null message; for a Sauce message exactly `Remove, Create`, then return (creation ok) or the recovery failure (creation threw) |
| Statements.Eval | java/client/test/org/openqa/selenium/testing/SeleniumTestRunner.java:106-205 | no contract of its own: the meaning of each wrapper's `evaluate()`, stated by `Statements.RetryPassesThrough`, `Statements.RetryPropagatesOtherFailures`, `Statements.RetryOnSauceFailure`, `Statements.RetryRecoveryFails`, `Statements.NoDriverAfterRemovesOnce`, `Statements.FreshDriverCreatesFirst` and `Statements.NotYetImplementedInverts` |
| Statements.RetryPassesThrough | java/client/test/org/openqa/selenium/testing/SeleniumTestRunner.java:109-110 | if the first evaluation passes, the retry guard's result is exactly that run: no driver event, no second evaluation |
| Statements.RetryPropagatesOtherFailures | java/client/test/org/openqa/selenium/testing/SeleniumTestRunner.java:120-131 | a non-Sauce failure yields the first run's events and the propagated failure, identical to the original when it is unchecked |
| Statements.RetryOnSauceFailure | java/client/test/org/openqa/selenium/testing/SeleniumTestRunner.java:111-125 | after a Sauce failure and a successful creation, the trace is first run + `Remove, Create(true)` + one second run, whose outcome is final |
| Statements.RetryRecoveryFails | java/client/test/org/openqa/selenium/testing/SeleniumTestRunner.java:123-127 | if recreation throws, the outcome is the recovery failure, the trace ends `Remove, Create(false)`, and no further evaluation happens |
| Statements.NoDriverAfterRemovesOnce | java/client/test/org/openqa/selenium/testing/SeleniumTestRunner.java:152-170 | the no-driver-after guard keeps the inner outcome and appends exactly one `Remove`, on pass and on fail |
| Statements.FreshDriverCreatesFirst | java/client/test/org/openqa/selenium/testing/SeleniumTestRunner.java:134-150 | the fresh-driver guard emits `Remove, Create` before the inner statement; a creation failure is the outcome and the inner never runs |
| Statements.NotYetImplementedInverts | java/client/test/org/openqa/selenium/testing/SeleniumTestRunner.java:190-206 | the inverted outcome passes iff the inner fails; an inner pass becomes the "already works" exception; events unchanged |
| Guarantees.EvaluationsBounded | java/client/test/org/openqa/selenium/testing/SeleniumTestRunner.java:105-118 | one evaluation of any statement runs the stages at most `MaxEvaluations` times: a retry guard at most doubles its inner count |
| Guarantees.NoDriverLeftBehind | java/client/test/org/openqa/selenium/testing/SeleniumTestRunner.java:160-169 | a statement with a no-driver-after guard on its path always ends with the driver released, after a retry or a failed recreation too |
| Guarantees.RetryRunsOnNewDriver | java/client/test/org/openqa/selenium/testing/SeleniumTestRunner.java:120-126 | in any trace, every evaluation but a first one comes right after a successful creation; under a fresh-driver guard, every one does |
| TestRunner.AlreadyWorksMessage | java/client/test/org/openqa/selenium/testing/SeleniumTestRunner.java:196-197 | the message is exactly `<SimpleClass>.<method> is marked as not yet implemented with <browser> but already works!`: prefix, browser at its position, suffix and total length are all fixed |
| TestRunner.WithNoDriverAfterTest | java/client/test/org/openqa/selenium/testing/SeleniumTestRunner.java:152-159 | the identity without `@NoDriverAfterTest`; with it, evaluating the result evaluates `s` once, keeps its outcome and appends exactly one `Remove` to its events, so the result always releases the driver |
| TestRunner.WithFreshDriver | java/client/test/org/openqa/selenium/testing/SeleniumTestRunner.java:134-141 | the identity without `@NeedsFreshDriver`; with it, evaluating the result emits `Remove` and a creation first; a failed creation is the outcome and `s` is not run; otherwise `s` runs after `Remove, Create(true)` and its outcome is kept |
| TestRunner.CoveringUpSauceErrors | java/client/test/org/openqa/selenium/testing/SeleniumTestRunner.java:105-118 | the result is exactly the Sauce retry of `s`, so `Statements.RetryPassesThrough`, `Statements.RetryPropagatesOtherFailures`, `Statements.RetryOnSauceFailure` and `Statements.RetryRecoveryFails` give its evaluation; it doubles the evaluation bound and keeps the lifecycle guarantees of what it wraps |
| TestRunner.DevModeDefaultIsFirefox | java/client/test/org/openqa/selenium/testing/SeleniumTestRunner.java:57-60 | with no browser detected, dev mode makes a `FIREFOX`-marked test (without marionette) marked and its message names `ff`; outside dev mode the browser is `null`, the mark does not apply and the message would name "null" |
| TestRunner.WithNotYetImplemented | java/client/test/org/openqa/selenium/testing/SeleniumTestRunner.java:185-189 | the identity unless a declared tag matches; otherwise the inversion carrying the method's "already works" message |
| TestRunner.MethodBlock | java/client/test/org/openqa/selenium/testing/SeleniumTestRunner.java:88-103 | a `JUnit4TestBase` gets at most two evaluations, any other instance one; the chain releases or refreshes the driver iff the instance is a `JUnit4TestBase` with the matching annotation |
| TestRunner.PlainInstanceIsNotRetried | java/client/test/org/openqa/selenium/testing/SeleniumTestRunner.java:95-101 | without a `JUnit4TestBase` the trace is a single evaluation and, unmarked, the outcome is the stages' own |
| TestRunner.InversionIsOutermost | java/client/test/org/openqa/selenium/testing/SeleniumTestRunner.java:99-101 | a marked method's outcome is the inversion of the whole unmarked chain's outcome, retry included, with the same driver trace |
| TestRunner.AtMostOneRetry | java/client/test/org/openqa/selenium/testing/SeleniumTestRunner.java:95-101 | a test method evaluates its stages at most twice, and at most once without a `JUnit4TestBase` |
| TestRunner.NoDriverAfterTestReleases | java/client/test/org/openqa/selenium/testing/SeleniumTestRunner.java:97 | `@NoDriverAfterTest` leaves no driver behind on any path through the chain |
| TestRunner.NeedsFreshDriverRecreates | java/client/test/org/openqa/selenium/testing/SeleniumTestRunner.java:98 | `@NeedsFreshDriver`: every evaluation, retry included, runs right after a successful creation |
| TestRunner.EveryAttemptHasItsOwnGuards | java/client/test/org/openqa/selenium/testing/SeleniumTestRunner.java:97-99 | under `@NoDriverAfterTest` every evaluation is directly followed by `Remove`, and an evaluation that is retried by `Remove, Remove` (its attempt's guard, then the recovery); under `@NeedsFreshDriver` every evaluation directly follows `Remove, Create(true)`, and the retried one follows `Remove, Create(true), Remove, Create(true)` (the recovery, then its attempt's guard) |
| TestRunner.TwoEvaluationsAreTwoGuardedAttempts | java/client/test/org/openqa/selenium/testing/SeleniumTestRunner.java:97-99 | the lifecycle guards sit inside the retry: the stages run at most twice, and twice only as two complete guarded runs around the recovery's `Remove, Create(true)` |
| TestRunner.RetryInsideGuardsIsDistinguished | java/client/test/org/openqa/selenium/testing/SeleniumTestRunner.java:97-99 | with the Sauce retry innermost instead of outermost, a Sauce failure followed by a pass breaks both order predicates above, so they pin the order of lines 97-99 |
| TestRunner.BothGuardsAroundSauceRetry | java/client/test/org/openqa/selenium/testing/SeleniumTestRunner.java:97-99 | for any test with both annotations and no `@NotYetImplemented`, a first evaluation failing with "sauce timeout", a passing second one and driver creations that succeed give exactly `Remove, Create(true), Evaluate, Remove, Remove, Create(true), Remove, Create(true), Evaluate, Remove` and a pass |
| TestRunner.FreshCreationFailureIsNotFollowedByRemoval | java/client/test/org/openqa/selenium/testing/SeleniumTestRunner.java:97-98 | for any test with both annotations and no `@NotYetImplemented`, a first driver creation failing with an error that does not name Sauce ends the test with that error through `Throwables.propagate`, and the trace is only `Remove, Create(false)`: no removal follows |
| TestRunner.SauceNamedCreationFailureIsRetried | java/client/test/org/openqa/selenium/testing/SeleniumTestRunner.java:97-99 | under the same conditions, a creation error that names Sauce is retried: the trace is `Remove, Create(false), Remove, Create(true), Remove, Create(true), Evaluate, Remove` and the outcome is the first evaluation's |
| TestRunner.ExpectedFailureOnFirefoxPasses | java/client/test/org/openqa/selenium/testing/SeleniumTestRunner.java:224-227 | marked `FIREFOX`, on non-marionette `ff`, a failing assertion is reported as a pass |
| TestRunner.FirefoxTestThatWorksIsReported | java/client/test/org/openqa/selenium/testing/SeleniumTestRunner.java:194-204 | the same test passing fails with the message naming the method and `ff` |
| TestRunner.SauceTimeoutIsTransient | java/client/test/org/openqa/selenium/testing/SeleniumTestRunner.java:121-122 | the message "sauce timeout" is classified as a Sauce failure |
| TestRunner.UpperCaseSauceIsNotTransient | java/client/test/org/openqa/selenium/testing/SeleniumTestRunner.java:121-122 | a message "SAUCE" is not classified as a Sauce failure |
| TestRunner.SauceTimeoutRetriedAndPasses | java/client/test/org/openqa/selenium/testing/SeleniumTestRunner.java:109-114 | "sauce timeout" then a pass gives `Pass` with trace `Evaluate, Remove, Create(true), Evaluate` |
| TestRunner.SauceRecoveryFailureIsFatal | java/client/test/org/openqa/selenium/testing/SeleniumTestRunner.java:124-127 | "sauce timeout" and a failing recreation give the recovery message with the creation error as cause, after one evaluation |
| TestRunner.UpperCaseSauceFailurePropagates | java/client/test/org/openqa/selenium/testing/SeleniumTestRunner.java:129-130 | a "SAUCE" failure propagates unchanged after one evaluation, with no driver event |
| TestRunner.RetriedPassIsSeenByInversion | java/client/test/org/openqa/selenium/testing/SeleniumTestRunner.java:99-101 | a method marked `ALL` whose first run hits Sauce and whose retry passes is reported as already working |
| ResourceLoader.Lookup | java/server/src/org/openqa/grid/internal/utils/ResourceLoader.java:26-27 | a lookup finds a name iff the class loader has it |
| ResourceLoader.FallbackName | java/server/src/org/openqa/grid/internal/utils/ResourceLoader.java:29-30 | the rewritten name is the suffix after the slash of the first `/defaults/`: it starts with `defaults/` and is strictly shorter |
| ResourceLoader.Load | java/server/src/org/openqa/grid/internal/utils/ResourceLoader.java:25-35 | a direct hit is returned with one lookup; a miss without `/defaults/` gives none; otherwise the second lookup, of the fallback name, is the result; at most two lookups |
| ResourceLoader.FallbackIsIdempotent | java/server/src/org/openqa/grid/internal/utils/ResourceLoader.java:30 | rewriting the rewritten name again (with its slash restored) gives the same name |
| ResourceLoader.LoadFindsPresentNames | java/server/src/org/openqa/grid/internal/utils/ResourceLoader.java:26-28 | a name the class loader has is always found as itself |
| ResourceLoader.HubPathMarkerAt23 | java/server/src/org/openqa/grid/internal/utils/ResourceLoader.java:30 | in the default hub path the first `/defaults/` starts at index 23 |
| ResourceLoader.DefaultHubResolves | java/server/test/org/openqa/grid/internal/utils/ResourceLoaderTest.java:13 | the hub's absolute-looking path loads whenever `defaults/DefaultHub.json` is present, through the fallback when needed |
| ResourceLoader.ShortNameResolves | java/server/test/org/openqa/grid/internal/utils/ResourceLoaderTest.java:17 | the short name `defaults/DefaultHub.json` loads directly with one lookup |

## Left out

- `runChild`, `runLeaf`, `RunNotifier` and `ReflectiveCallable`: JUnit plumbing. The one effect that reaches the chain is a `null` instance after a failed `createTest`; it is modelled as `isTestBase == false`. Reporting a skip (`Skipped`) happens outside the chain.
- `withBefores`, `withAfters`, `withPotentialTimeout`, `possiblyExpectingExceptions` and the reflective `withRules` (lines 89-94 and 173-183): together they are the opaque `Stages` statement, whose outcomes come from the oracle.
- `Browser.detect()`, `DevMode.isInDevMode()`, `SauceDriver.shouldUseSauce()`, the system properties and `TestIgnorance.isIgnored`: environment probes and the skip policy, passed in as plain values (`Config`, `ResolveBrowser`'s arguments).
- Driver construction and removal (`JUnit4TestBase.removeDriver`, `createDriver`, `actuallyCreateDriver`): only trace events. Creation may fail, as the oracle says. Removal is modelled as never throwing, so the `finally` at lines 165-167 never replaces an outcome.
- The `default` arm at lines 256-257: the `Driver` tags are a closed datatype, so it cannot be reached.
- Browsers the runner never compares against are one `Other(name)` value. The real `Browser` enum is not part of this model. An `Other` name is taken to be none of the names the named browsers print (`Drivers.WellNamed`); `Some(Other("ff"))` would print like `ff` while matching no `FIREFOX` tag, and the enum cannot produce such a value.
- Localised messages: the message of a `RuntimeException` wrapping a checked exception is `toString()` of the cause, modelled in `Failures.Describe` as the class name plus message.
- Concurrency around the static driver holder: one test method is evaluated sequentially.
- `ResourceLoader`: the real class loader and `InputStream` I/O. A class loader is a set of names; a found stream is the name it was found under.

=== FILE: drivers.dfy ===
/**
 * The target environment of a test run and the `@NotYetImplemented` tag
 * policy of `SeleniumTestRunner`: which declared `Driver` tags match the
 * detected browser, the marionette flag and the remote flag.
 */
module Drivers {
  import opened Wrappers

  /**
   * The browsers `Browser.detect()` can report. `Other` stands for the enum
   * values the runner never tests for; its name is that value's own name,
   * which is never one of the names of the other constructors.
   */
  datatype Browser = Chrome | Ff | Htmlunit | HtmlunitJs | Ie | Phantomjs | Safari | Other(name: string)

  /** The `Ignore.Driver` tags a `@NotYetImplemented` annotation may list. */
  datatype Driver = All | ChromeTag | Firefox | HtmlunitTag | IeTag | Marionette | PhantomjsTag | Remote | SafariTag

  /**
   * Everything the tag policy reads about the environment: the browser fixed
   * when the runner was built (`None` for `null`), the
   * `webdriver.firefox.marionette` and `selenium.browser.remote` system
   * properties, and `SauceDriver.shouldUseSauce()`.
   */
  datatype Config = Config(browser: Option<Browser>, marionette: bool, remoteProperty: bool, useSauce: bool)

  /** The name a `Browser` value prints as in a string concatenation; `null` prints as "null". */
  function BrowserName(b: Option<Browser>): (r: string)
    ensures b.None? ==> r == "null"
  {
    match b
    case None => "null"
    case Some(Chrome) => "chrome"
    case Some(Ff) => "ff"
    case Some(Htmlunit) => "htmlunit"
    case Some(HtmlunitJs) => "htmlunit_js"
    case Some(Ie) => "ie"
    case Some(Phantomjs) => "phantomjs"
    case Some(Safari) => "safari"
    case Some(Other(name)) => name
  }

  /** The names the named browsers and `null` print as; an `Other` browser's name is none of them. */
  const ReservedNames: set<string> := {"null", "chrome", "ff", "htmlunit", "htmlunit_js", "ie", "phantomjs", "safari"}

  /** A browser value as the enum can produce it: an `Other` never reuses a reserved name. */
  predicate WellNamed(b: Option<Browser>) {
    b.Some? && b.value.Other? ==> b.value.name !in ReservedNames
  }

  /** The printed name identifies the browser, so the "already works" message names it unambiguously. */
  lemma BrowserNameIdentifies(a: Option<Browser>, b: Option<Browser>)
    requires WellNamed(a) && WellNamed(b)
    requires BrowserName(a) == BrowserName(b)
    ensures a == b
  {
  }

  /**
   * The runner's constructor: the detected browser, or `ff` when nothing was
   * detected and the process runs in development mode.
   */
  function ResolveBrowser(detected: Option<Browser>, devMode: bool): (r: Option<Browser>)
    ensures detected.Some? ==> r == detected
    ensures detected.None? && devMode ==> r == Some(Ff)
    ensures r.None? <==> detected.None? && !devMode
  {
    if detected.None? && devMode then Some(Ff) else detected
  }

  /** The remote flag the `REMOTE` tag reads: the system property or Sauce. */
  predicate IsRemote(cfg: Config) {
    cfg.remoteProperty || cfg.useSauce
  }

  /**
   * The per-tag predicate: the environments in which a single declared tag
   * marks the test as not yet implemented.
   */
  predicate TagMatches(d: Driver, cfg: Config) {
    match d
    case All => true
    case ChromeTag => cfg.browser == Some(Chrome)
    case Firefox => !cfg.marionette && cfg.browser == Some(Ff)
    case HtmlunitTag => cfg.browser == Some(Htmlunit) || cfg.browser == Some(HtmlunitJs)
    case IeTag => cfg.browser == Some(Ie)
    case Marionette => cfg.marionette && cfg.browser == Some(Ff)
    case PhantomjsTag => cfg.browser == Some(Phantomjs)
    case Remote => IsRemote(cfg)
    case SafariTag => cfg.browser == Some(Safari)
  }

  /**
   * One arm of the `switch` in `isNotYetImplemented`, as an update of the
   * running flag `current`: the `FIREFOX` and `MARIONETTE` arms leave the flag
   * untouched when their property guard is false.
   */
  function SwitchArm(d: Driver, cfg: Config, current: bool): (r: bool)
    ensures !current ==> (r <==> TagMatches(d, cfg))
  {
    match d
    case All => true
    case ChromeTag => cfg.browser == Some(Chrome)
    case Firefox => if !cfg.marionette then cfg.browser == Some(Ff) else current
    case HtmlunitTag => cfg.browser == Some(Htmlunit) || cfg.browser == Some(HtmlunitJs)
    case IeTag => cfg.browser == Some(Ie)
    case Marionette => if cfg.marionette then cfg.browser == Some(Ff) else current
    case PhantomjsTag => cfg.browser == Some(Phantomjs)
    case Remote => IsRemote(cfg)
    case SafariTag => cfg.browser == Some(Safari)
  }

  /**
   * The `for` loop over the declared tags: the switch runs only while the
   * flag is still false, so a match is never reset by a later tag.
   */
  function ScanTags(tags: seq<Driver>, cfg: Config, current: bool): (r: bool)
    ensures r <==> current || exists i :: 0 <= i < |tags| && TagMatches(tags[i], cfg)
    decreases |tags|
  {
    if |tags| == 0 then current
    else
      var next := if !current then SwitchArm(tags[0], cfg, current) else current;
      var r := ScanTags(tags[1..], cfg, next);
      assert forall i :: 0 < i < |tags| ==> tags[i] == tags[1..][i - 1];
      r
  }

  /**
   * `isNotYetImplemented`: `annotation` is the tag list of the method's
   * `@NotYetImplemented`, `None` when the method is not annotated.
   */
  function IsNotYetImplemented(annotation: Option<seq<Driver>>, cfg: Config): (r: bool)
    ensures annotation.None? ==> !r
    ensures annotation == Some([]) ==> !r
    ensures r <==> annotation.Some? && exists i :: 0 <= i < |annotation.value| && TagMatches(annotation.value[i], cfg)
  {
    match annotation
    case None => false
    case Some(tags) => ScanTags(tags, cfg, false)
  }

  /** A match anywhere in the list survives any tags declared after it. */
  lemma MatchIsNeverReset(tags: seq<Driver>, later: seq<Driver>, cfg: Config)
    requires IsNotYetImplemented(Some(tags), cfg)
    ensures IsNotYetImplemented(Some(tags + later), cfg)
  {
    var i :| 0 <= i < |tags| && TagMatches(tags[i], cfg);
    assert (tags + later)[i] == tags[i];
  }

  /** The order of the declared tags does not matter, only which tags are declared. */
  lemma OnlyTheDeclaredSetMatters(tags: seq<Driver>, other: seq<Driver>, cfg: Config)
    requires forall d :: d in tags <==> d in other
    ensures IsNotYetImplemented(Some(tags), cfg) == IsNotYetImplemented(Some(other), cfg)
  {
    if IsNotYetImplemented(Some(tags), cfg) {
      var i :| 0 <= i < |tags| && TagMatches(tags[i], cfg);
      assert tags[i] in other;
    }
    if IsNotYetImplemented(Some(other), cfg) {
      var i :| 0 <= i < |other| && TagMatches(other[i], cfg);
      assert other[i] in tags;
    }
  }

  /** `FIREFOX` and `MARIONETTE` are never satisfied by the same configuration. */
  lemma FirefoxAndMarionetteExclusive(cfg: Config)
    ensures !(TagMatches(Firefox, cfg) && TagMatches(Marionette, cfg))
    ensures cfg.browser == Some(Ff) ==> (TagMatches(Firefox, cfg) <==> !TagMatches(Marionette, cfg))
  {
  }

  /** `HTMLUNIT` covers both HtmlUnit variants and nothing else. */
  lemma HtmlunitCoversBothVariants(cfg: Config)
    ensures TagMatches(HtmlunitTag, cfg) <==> cfg.browser in {Some(Htmlunit), Some(HtmlunitJs)}
  {
  }

  /** `REMOTE` reads only the remote property and Sauce, never the browser or marionette flag. */
  lemma RemoteIgnoresBrowser(cfg: Config, b: Option<Browser>, marionette: bool)
    ensures TagMatches(Remote, cfg) <==> (cfg.remoteProperty || cfg.useSauce)
    ensures TagMatches(Remote, cfg) == TagMatches(Remote, cfg.(browser := b, marionette := marionette))
  {
  }

  /** `ALL` matches every configuration, so a list holding it always marks the test. */
  lemma AllAlwaysMatches(tags: seq<Driver>, cfg: Config)
    requires All in tags
    ensures IsNotYetImplemented(Some(tags), cfg)
  {
    var i :| 0 <= i < |tags| && tags[i] == All;
    assert TagMatches(tags[i], cfg);
  }
}

=== FILE: failures.dfy ===
/**
 * Java throwables as values, and the two ways the runner re-throws them:
 * Guava's `Throwables.propagate` and the wrapping of a driver-creation
 * failure during Sauce recovery.
 */
module Failures {
  import opened Wrappers

  /**
   * Where a throwable sits in Java's hierarchy, which decides how it is
   * re-thrown: a checked `Exception`, a `RuntimeException`, an `Error`, or a
   * direct subclass of `Throwable` that is neither an exception nor an error.
   */
  datatype Kind = CheckedException | UncheckedException | Error | OtherThrowable

  /** What `throwIfUnchecked` lets through as it is: a `RuntimeException` or an `Error`. */
  predicate IsUnchecked(k: Kind) {
    k == UncheckedException || k == Error
  }

  /** What `catch (Exception e)` catches: checked and unchecked exceptions. */
  predicate IsException(k: Kind) {
    k == CheckedException || k == UncheckedException
  }

  /** A throwable: its class name, kind, `getMessage()` (`None` for `null`) and cause. */
  datatype Throwable = Throwable(className: string, kind: Kind, message: Option<string>, cause: Option<Throwable>)

  const RuntimeExceptionClass := "java.lang.RuntimeException"
  const ExceptionClass := "java.lang.Exception"

  /** The message of the `RuntimeException` thrown when recreating the driver fails. */
  const RecoveryMessage := "Exception creating driver, after Sauce-detected exception"

  /** `Throwable.toString()`: the class name, then ": " and the message when there is one. */
  function Describe(t: Throwable): (r: string)
    ensures t.message.None? ==> r == t.className
    ensures t.message.Some? ==> |r| == |t.className| + 2 + |t.message.value|
    ensures r[..|t.className|] == t.className
  {
    match t.message
    case None => t.className
    case Some(m) => t.className + ": " + m
  }

  /**
   * `Throwables.propagate(t)`: an unchecked exception or an error is thrown
   * as it is; anything else is wrapped in `new RuntimeException(t)`, whose
   * message is `t.toString()`.
   */
  function Propagate(t: Throwable): (r: Throwable)
    ensures IsUnchecked(t.kind) ==> r == t
    ensures !IsUnchecked(t.kind) ==> r.kind == UncheckedException && r.cause == Some(t) && r.message == Some(Describe(t))
    ensures IsUnchecked(r.kind)
  {
    if IsUnchecked(t.kind) then t
    else Throwable(RuntimeExceptionClass, UncheckedException, Some(Describe(t)), Some(t))
  }

  /**
   * What escapes `dealWithSauceFailureIfNecessary` when creating the new
   * driver throws `e`: the `catch (Exception e)` wraps exceptions in a
   * `RuntimeException` carrying the recovery message, while an `Error` or
   * any other throwable is not caught and escapes as it is.
   */
  function RecoveryFailure(e: Throwable): (r: Throwable)
    ensures !IsException(e.kind) ==> r == e
    ensures IsException(e.kind) ==> r.message == Some(RecoveryMessage) && r.cause == Some(e) && r.kind == UncheckedException
  {
    if IsException(e.kind) then Throwable(RuntimeExceptionClass, UncheckedException, Some(RecoveryMessage), Some(e))
    else e
  }
}

=== FILE: guarantees.dfy ===
/**
 * Properties that hold for every statement the wrappers can build, proved
 * by induction on the statement: how often the framework stages run, which
 * driver state a statement leaves behind, and which driver each evaluation
 * runs on.
 */
module Guarantees {
  import opened Wrappers
  import opened Statements

  /** The most evaluations of the framework stages one evaluation of `s` can cause. */
  function MaxEvaluations(s: Statement): nat {
    match s
    case Stages => 1
    case NoDriverAfter(inner) => MaxEvaluations(inner)
    case FreshDriver(inner) => MaxEvaluations(inner)
    case SauceRetry(inner) => 2 * MaxEvaluations(inner)
    case NotYetImplemented(_, inner) => MaxEvaluations(inner)
  }

  /** Each retry guard at most doubles the evaluations of what it wraps: a retried statement is never retried again. */
  lemma {:induction false} EvaluationsBounded(s: Statement, oracle: Oracle, h: seq<Event>)
    ensures Evaluations(Eval(s, oracle, h).events) <= MaxEvaluations(s)
    decreases s
  {
    match s
    case Stages =>
      assert Eval(s, oracle, h).events == [] + [Evaluate];
    case NoDriverAfter(inner) =>
      EvaluationsBounded(inner, oracle, h);
      EvaluationsAppend(Eval(inner, oracle, h).events, [Remove]);
    case FreshDriver(inner) =>
      var c := oracle.creation(Creations(h + [Remove]));
      NoEvaluationCountsZero([Remove, Create(c.Created?)]);
      if c.Created? {
        EvaluationsBounded(inner, oracle, h + [Remove, Create(true)]);
        EvaluationsAppend([Remove, Create(true)], Eval(inner, oracle, h + [Remove, Create(true)]).events);
      }
    case SauceRetry(inner) =>
      var first := Eval(inner, oracle, h);
      EvaluationsBounded(inner, oracle, h);
      if first.outcome.Fail? {
        var recovery := DealWithSauceFailure(first.outcome.error, oracle, h + first.events);
        NoEvaluationCountsZero(recovery.events);
        EvaluationsAppend(first.events, recovery.events);
        if recovery.Retry? {
          var second := Eval(inner, oracle, h + first.events + recovery.events);
          EvaluationsBounded(inner, oracle, h + first.events + recovery.events);
          EvaluationsAppend(first.events + recovery.events, second.events);
        }
      }
    case NotYetImplemented(_, inner) =>
      EvaluationsBounded(inner, oracle, h);
  }

  /** The last driver-lifecycle event in `es`, skipping evaluations of the stages. */
  function LastDriverEvent(es: seq<Event>): (r: Option<Event>)
    ensures r.Some? ==> r.value != Evaluate && r.value in es
  {
    if es == [] then None
    else if es[|es| - 1] != Evaluate then Some(es[|es| - 1])
    else LastDriverEvent(es[..|es| - 1])
  }

  /** After `es` no driver is held: the last lifecycle event removed it or failed to create one. */
  predicate DriverReleased(es: seq<Event>) {
    LastDriverEvent(es) == Some(Remove) || LastDriverEvent(es) == Some(Create(false))
  }

  lemma {:induction false} LastDriverEventAppend(a: seq<Event>, b: seq<Event>)
    ensures LastDriverEvent(b).Some? ==> LastDriverEvent(a + b) == LastDriverEvent(b)
    ensures LastDriverEvent(b).None? ==> LastDriverEvent(a + b) == LastDriverEvent(a)
    decreases |b|
  {
    if b == [] {
      assert a + b == a;
    } else {
      assert (a + b)[..|a + b| - 1] == a + b[..|b| - 1];
      LastDriverEventAppend(a, b[..|b| - 1]);
    }
  }

  /** The statements whose every exit path ends by releasing the driver. */
  predicate ReleasesDriver(s: Statement) {
    match s
    case Stages => false
    case NoDriverAfter(_) => true
    case FreshDriver(inner) => ReleasesDriver(inner)
    case SauceRetry(inner) => ReleasesDriver(inner)
    case NotYetImplemented(_, inner) => ReleasesDriver(inner)
  }

  /**
   * A no-driver-after guard anywhere on the path to the stages leaves no
   * driver behind, whatever the outcome, including after a Sauce retry or a
   * failed recreation.
   */
  lemma {:induction false} NoDriverLeftBehind(s: Statement, oracle: Oracle, h: seq<Event>)
    requires ReleasesDriver(s)
    ensures DriverReleased(Eval(s, oracle, h).events)
    decreases s
  {
    match s
    case NoDriverAfter(inner) =>
      LastDriverEventAppend(Eval(inner, oracle, h).events, [Remove]);
    case FreshDriver(inner) =>
      var c := oracle.creation(Creations(h + [Remove]));
      if c.Created? {
        NoDriverLeftBehind(inner, oracle, h + [Remove, Create(true)]);
        LastDriverEventAppend([Remove, Create(true)], Eval(inner, oracle, h + [Remove, Create(true)]).events);
      }
    case SauceRetry(inner) =>
      var first := Eval(inner, oracle, h);
      NoDriverLeftBehind(inner, oracle, h);
      if first.outcome.Fail? {
        var recovery := DealWithSauceFailure(first.outcome.error, oracle, h + first.events);
        LastDriverEventAppend(first.events, recovery.events);
        if recovery.Retry? {
          var second := Eval(inner, oracle, h + first.events + recovery.events);
          NoDriverLeftBehind(inner, oracle, h + first.events + recovery.events);
          LastDriverEventAppend(first.events + recovery.events, second.events);
        }
      }
    case NotYetImplemented(_, inner) =>
      NoDriverLeftBehind(inner, oracle, h);
  }

  /** Every evaluation of the stages except one at the very start comes right after a successful driver creation. */
  predicate EvaluationsFollowCreation(es: seq<Event>) {
    forall i :: 0 < i < |es| && es[i] == Evaluate ==> es[i - 1] == Create(true)
  }

  /** No evaluation of the stages happens before a driver has been created. */
  predicate OnFreshDriver(es: seq<Event>) {
    EvaluationsFollowCreation(es) && (|es| > 0 ==> es[0] != Evaluate)
  }

  lemma FollowCreationAppend(a: seq<Event>, b: seq<Event>)
    requires EvaluationsFollowCreation(a) && EvaluationsFollowCreation(b)
    requires |b| > 0 && b[0] == Evaluate ==> |a| > 0 && a[|a| - 1] == Create(true)
    ensures EvaluationsFollowCreation(a + b)
  {
  }

  /** A retried evaluation always runs on a freshly created driver, for every statement. */
  lemma {:induction false} RetryRunsOnNewDriver(s: Statement, oracle: Oracle, h: seq<Event>)
    ensures EvaluationsFollowCreation(Eval(s, oracle, h).events)
    ensures StartsFresh(s) ==> OnFreshDriver(Eval(s, oracle, h).events)
    decreases s
  {
    match s
    case Stages =>
    case NoDriverAfter(inner) =>
      RetryRunsOnNewDriver(inner, oracle, h);
      FollowCreationAppend(Eval(inner, oracle, h).events, [Remove]);
    case FreshDriver(inner) =>
      var c := oracle.creation(Creations(h + [Remove]));
      if c.Created? {
        var r := Eval(inner, oracle, h + [Remove, Create(true)]);
        RetryRunsOnNewDriver(inner, oracle, h + [Remove, Create(true)]);
        FollowCreationAppend([Remove, Create(true)], r.events);
      }
    case SauceRetry(inner) =>
      var first := Eval(inner, oracle, h);
      RetryRunsOnNewDriver(inner, oracle, h);
      if first.outcome.Fail? {
        var recovery := DealWithSauceFailure(first.outcome.error, oracle, h + first.events);
        FollowCreationAppend(first.events, recovery.events);
        if recovery.Retry? {
          var second := Eval(inner, oracle, h + first.events + recovery.events);
          RetryRunsOnNewDriver(inner, oracle, h + first.events + recovery.events);
          FollowCreationAppend(first.events + recovery.events, second.events);
        }
      }
    case NotYetImplemented(_, inner) =>
      RetryRunsOnNewDriver(inner, oracle, h);
  }

  /** The statements that create a driver before anything else can evaluate the stages. */
  predicate StartsFresh(s: Statement) {
    match s
    case Stages => false
    case NoDriverAfter(inner) => StartsFresh(inner)
    case FreshDriver(_) => true
    case SauceRetry(inner) => StartsFresh(inner)
    case NotYetImplemented(_, inner) => StartsFresh(inner)
  }

  /** Every evaluation of the stages is immediately followed by a driver removal. */
  predicate EvaluationsFollowedByRemove(es: seq<Event>) {
    forall i :: 0 <= i < |es| && es[i] == Evaluate ==> i + 1 < |es| && es[i + 1] == Remove
  }

  /** Every evaluation of the stages comes right after a removal and a successful creation. */
  predicate EvaluationsAfterFreshGuard(es: seq<Event>) {
    forall i :: 0 <= i < |es| && es[i] == Evaluate ==> 2 <= i && es[i - 2] == Remove && es[i - 1] == Create(true)
  }

  /**
   * Between two evaluations the driver is removed twice in a row, right
   * after the earlier one: once by the finished attempt, once by the recovery.
   */
  predicate ReleasedBeforeRecovery(es: seq<Event>) {
    forall j, i :: 0 <= j < i < |es| && es[j] == Evaluate && es[i] == Evaluate ==>
      j + 3 <= |es| && es[j + 1..j + 3] == [Remove, Remove]
  }

  /**
   * A later evaluation comes right after two successful recreations in a
   * row: the recovery's and the retried attempt's own.
   */
  predicate RecreatedTwiceBeforeRetry(es: seq<Event>) {
    forall j, i :: 0 <= j < i < |es| && es[j] == Evaluate && es[i] == Evaluate ==>
      4 <= i && es[i - 4..i] == [Remove, Create(true), Remove, Create(true)]
  }

  lemma FollowedByRemoveAppend(a: seq<Event>, b: seq<Event>)
    requires EvaluationsFollowedByRemove(a) && EvaluationsFollowedByRemove(b)
    ensures EvaluationsFollowedByRemove(a + b)
  {
    forall i | 0 <= i < |a + b| && (a + b)[i] == Evaluate
      ensures i + 1 < |a + b| && (a + b)[i + 1] == Remove
    {
      if i >= |a| {
        assert (a + b)[i] == b[i - |a|];
      }
    }
  }

  lemma AfterFreshGuardAppend(a: seq<Event>, b: seq<Event>)
    requires EvaluationsAfterFreshGuard(a) && EvaluationsAfterFreshGuard(b)
    ensures EvaluationsAfterFreshGuard(a + b)
  {
    forall i | 0 <= i < |a + b| && (a + b)[i] == Evaluate
      ensures 2 <= i && (a + b)[i - 2] == Remove && (a + b)[i - 1] == Create(true)
    {
      if i >= |a| {
        assert (a + b)[i] == b[i - |a|];
      }
    }
  }
}

=== FILE: resource_loader.dfy ===
/**
 * `ResourceLoader.load`: look a resource up by name and, when that fails,
 * retry with the part of the name after the slash that starts its first
 * `/defaults/`. The context class loader is a set of names it can resolve.
 */
module ResourceLoader {
  import opened Wrappers
  import opened Strings

  const DefaultsMarker := "/defaults/"

  /** A load: the resource found (by the name it was found under) and the names looked up, in order. */
  datatype Loaded = Loaded(resource: Option<string>, lookups: seq<string>)

  /** `getResourceAsStream(name)` on a class loader that resolves exactly the names in `classpath`. */
  function Lookup(classpath: set<string>, name: string): (r: Option<string>)
    ensures r.Some? <==> name in classpath
    ensures r.Some? ==> r.value == name
  {
    if name in classpath then Some(name) else None
  }

  /** The fallback name: everything after the slash that starts the first `/defaults/`. */
  function FallbackName(name: string): (r: string)
    requires Contains(name, DefaultsMarker)
    ensures StartsWith(r, "defaults/")
    ensures |r| < |name|
    ensures name[|name| - |r|..] == r
    ensures OccursAt(name, DefaultsMarker, |name| - |r| - 1)
    ensures forall j :: 0 <= j < |name| - |r| - 1 ==> !OccursAt(name, DefaultsMarker, j)
  {
    var i := IndexOf(name, DefaultsMarker).value;
    var r := name[i + 1..];
    assert r[..9] == name[i + 1..i + 10] == DefaultsMarker[1..];
    r
  }

  /** `load(name)`: the direct lookup, then the `/defaults/` fallback when the direct lookup finds nothing. */
  function Load(classpath: set<string>, name: string): (r: Loaded)
    ensures 1 <= |r.lookups| <= 2 && r.lookups[0] == name
    ensures name in classpath ==> r == Loaded(Some(name), [name])
    ensures name !in classpath && !Contains(name, DefaultsMarker) ==> r == Loaded(None, [name])
    ensures name !in classpath && Contains(name, DefaultsMarker) ==>
      r == Loaded(Lookup(classpath, FallbackName(name)), [name, FallbackName(name)])
    ensures r.resource.Some? ==> r.resource.value in classpath && r.resource.value == r.lookups[|r.lookups| - 1]
  {
    var direct := Lookup(classpath, name);
    if direct.None? && Contains(name, DefaultsMarker) then
      var newName := FallbackName(name);
      Loaded(Lookup(classpath, newName), [name, newName])
    else
      Loaded(direct, [name])
  }

  /** The fallback of a fallback name is itself: rewriting twice changes nothing more. */
  lemma FallbackIsIdempotent(name: string)
    requires Contains(name, DefaultsMarker)
    ensures Contains("/" + FallbackName(name), DefaultsMarker)
    ensures FallbackName("/" + FallbackName(name)) == FallbackName(name)
  {
  }

  /** A resource that resolves by name is found however the class loader treats other names. */
  lemma LoadFindsPresentNames(classpath: set<string>, name: string)
    requires name in classpath
    ensures Load(classpath, name).resource == Some(name)
  {
  }

  const HubPath := "/org/openqa/grid/common/defaults/DefaultHub.json"

  /** An occurrence needs its first two characters to match. */
  lemma MismatchRulesOutOccurrence(s: string, p: string, j: nat)
    requires |p| >= 2 && j + 1 < |s|
    requires s[j] != p[0] || s[j + 1] != p[1]
    ensures !OccursAt(s, p, j)
  {
  }

  /** The first `/defaults/` of the hub path starts at index 23. */
  lemma HubPathMarkerAt23()
    ensures IndexOf(HubPath, DefaultsMarker) == Some(23)
  {
    var s := "/org/openqa/grid/common" + DefaultsMarker + "DefaultHub.json";
    assert s == HubPath;
    assert s[23..33] == DefaultsMarker;
    var prefix := "/org/openqa/grid/common/";
    assert s[..24] == prefix;
    forall j | 0 <= j < 23 ensures !OccursAt(s, DefaultsMarker, j) {
      assert prefix[j] != '/' || prefix[j + 1] != 'd';
      assert s[j] == prefix[j] && s[j + 1] == prefix[j + 1];
      MismatchRulesOutOccurrence(s, DefaultsMarker, j);
    }
    IndexOfIsFirst(s, DefaultsMarker, 23);
  }

  /**
   * The grid's default hub configuration loads by its absolute-looking name
   * whenever the class loader has `defaults/DefaultHub.json`.
   */
  lemma DefaultHubResolves(classpath: set<string>)
    requires "defaults/DefaultHub.json" in classpath
    ensures Load(classpath, HubPath).resource.Some?
    ensures HubPath !in classpath ==>
      Load(classpath, HubPath) == Loaded(Some("defaults/DefaultHub.json"), [HubPath, "defaults/DefaultHub.json"])
  {
    HubPathMarkerAt23();
    assert HubPath[24..] == "defaults/DefaultHub.json";
  }

  /** The short name used directly needs no fallback. */
  lemma ShortNameResolves(classpath: set<string>)
    requires "defaults/DefaultHub.json" in classpath
    ensures Load(classpath, "defaults/DefaultHub.json") == Loaded(Some("defaults/DefaultHub.json"), ["defaults/DefaultHub.json"])
  {
  }
}

=== FILE: statements.dfy ===
/**
 * JUnit `Statement`s as the runner composes them, and what evaluating one
 * does: its outcome (pass, or the throwable it throws) and the trace of
 * driver-lifecycle events and evaluations of the framework stages.
 *
 * The framework stages (method invocation, expected exceptions, timeout,
 * befores, afters, rules) are one opaque statement whose outcome on its
 * n-th evaluation is given by an oracle, and so is the result of the n-th
 * attempt to create a driver.
 */
module Statements {
  import opened Wrappers
  import opened Strings
  import opened Failures

  /** The outcome of `Statement.evaluate()`: it returns, or it throws. */
  datatype Outcome = Pass | Fail(error: Throwable)

  /** Whether an attempt to create a driver succeeded or threw. */
  datatype Creation = Created | CreationFailed(error: Throwable)

  /**
   * What evaluating a statement does besides its outcome:
   * `JUnit4TestBase.removeDriver()`, a driver creation (`createDriver` or
   * `actuallyCreateDriver`) and whether it succeeded, and one evaluation of
   * the framework stages.
   */
  datatype Event = Remove | Create(ok: bool) | Evaluate

  /** The behaviour of the code the runner calls but does not contain. */
  datatype Oracle = Oracle(stages: nat -> Outcome, creation: nat -> Creation)

  /** A statement built by `methodBlock`. */
  datatype Statement =
    | Stages
    | NoDriverAfter(inner: Statement)
    | FreshDriver(inner: Statement)
    | SauceRetry(inner: Statement)
    | NotYetImplemented(message: string, inner: Statement)

  /** One evaluation: its outcome and the events it emitted, in order. */
  datatype Run = Run(outcome: Outcome, events: seq<Event>)

  /** What `dealWithSauceFailureIfNecessary` does: return normally so the caller retries, or throw. */
  datatype Recovery = Retry(events: seq<Event>) | Rethrow(error: Throwable, events: seq<Event>)

  /** How many times the framework stages were evaluated in `es`. */
  function Evaluations(es: seq<Event>): nat {
    if es == [] then 0
    else Evaluations(es[..|es| - 1]) + (if es[|es| - 1] == Evaluate then 1 else 0)
  }

  /** How many driver creations were attempted in `es`. */
  function Creations(es: seq<Event>): nat {
    if es == [] then 0
    else Creations(es[..|es| - 1]) + (if es[|es| - 1].Create? then 1 else 0)
  }

  /** The substrings that mark a failure as caused by Sauce; the check is case-sensitive. */
  predicate IsSauceMessage(m: string) {
    Contains(m, "sauce") || Contains(m, "Sauce")
  }

  /** The failures the retry guard treats as transient: a non-null message naming Sauce. */
  predicate IsSauceFailure(t: Throwable)
    ensures IsSauceFailure(t) <==>
      t.message.Some? && exists i :: OccursAt(t.message.value, "sauce", i) || OccursAt(t.message.value, "Sauce", i)
  {
    if t.message.None? then false
    else
      ContainsIff(t.message.value, "sauce");
      ContainsIff(t.message.value, "Sauce");
      IsSauceMessage(t.message.value)
  }

  /** The exception a not-yet-implemented test that passed throws. */
  function AlreadyWorks(message: string): (r: Throwable)
    ensures r.message == Some(message) && r.kind == CheckedException
  {
    Throwable(ExceptionClass, CheckedException, Some(message), None)
  }

  /**
   * `dealWithSauceFailureIfNecessary(t)`, where `h` is everything emitted
   * before: for a Sauce failure remove the driver and create a new one,
   * wrapping a creation failure; any other failure is re-thrown through
   * `Throwables.propagate` with no driver event.
   */
  function DealWithSauceFailure(t: Throwable, oracle: Oracle, h: seq<Event>): (r: Recovery)
    ensures !IsSauceFailure(t) ==> r == Rethrow(Propagate(t), [])
    ensures IsSauceFailure(t) && oracle.creation(Creations(h + [Remove])).Created? ==> r == Retry([Remove, Create(true)])
    ensures IsSauceFailure(t) && oracle.creation(Creations(h + [Remove])).CreationFailed? ==>
      r == Rethrow(RecoveryFailure(oracle.creation(Creations(h + [Remove])).error), [Remove, Create(false)])
  {
    if IsSauceFailure(t) then
      var created := oracle.creation(Creations(h + [Remove]));
      if created.Created? then Retry([Remove, Create(true)])
      else Rethrow(RecoveryFailure(created.error), [Remove, Create(false)])
    else
      Rethrow(Propagate(t), [])
  }

  /**
   * Evaluating `s` once, after the events `h` were emitted (which fixes
   * which evaluation of the stages and which driver creation come next).
   */
  function Eval(s: Statement, oracle: Oracle, h: seq<Event>): Run
    decreases s
  {
    match s
    case Stages =>
      Run(oracle.stages(Evaluations(h)), [Evaluate])
    case NoDriverAfter(inner) =>
      // try { inner } finally { removeDriver(); }
      var r := Eval(inner, oracle, h);
      Run(r.outcome, r.events + [Remove])
    case FreshDriver(inner) =>
      // removeDriver(); createDriver(); inner
      var created := oracle.creation(Creations(h + [Remove]));
      if created.CreationFailed? then Run(Fail(created.error), [Remove, Create(false)])
      else
        var r := Eval(inner, oracle, h + [Remove, Create(true)]);
        Run(r.outcome, [Remove, Create(true)] + r.events)
    case SauceRetry(inner) =>
      // try { inner } catch (t) { dealWithSauceFailureIfNecessary(t); inner }
      var first := Eval(inner, oracle, h);
      if first.outcome.Pass? then first
      else
        var recovery := DealWithSauceFailure(first.outcome.error, oracle, h + first.events);
        if recovery.Rethrow? then Run(Fail(recovery.error), first.events + recovery.events)
        else
          var second := Eval(inner, oracle, h + first.events + recovery.events);
          Run(second.outcome, first.events + recovery.events + second.events)
    case NotYetImplemented(message, inner) =>
      // a throw is the expected state; a normal return is reported
      var r := Eval(inner, oracle, h);
      Run(if r.outcome.Pass? then Fail(AlreadyWorks(message)) else Pass, r.events)
  }

  lemma {:induction false} EvaluationsAppend(a: seq<Event>, b: seq<Event>)
    ensures Evaluations(a + b) == Evaluations(a) + Evaluations(b)
    decreases |b|
  {
    if b != [] {
      assert (a + b)[..|a + b| - 1] == a + b[..|b| - 1];
      EvaluationsAppend(a, b[..|b| - 1]);
    } else {
      assert a + b == a;
    }
  }

  /** A trace without evaluations of the stages counts none. */
  lemma {:induction false} NoEvaluationCountsZero(es: seq<Event>)
    requires Evaluate !in es
    ensures Evaluations(es) == 0
    decreases |es|
  {
    if es != [] {
      NoEvaluationCountsZero(es[..|es| - 1]);
    }
  }

  /** An evaluation at index `i` is counted on top of those before it. */
  lemma EvaluationCounted(es: seq<Event>, i: nat)
    requires i < |es| && es[i] == Evaluate
    ensures Evaluations(es) >= Evaluations(es[..i]) + 1
  {
    assert es == es[..i] + ([Evaluate] + es[i + 1..]);
    EvaluationsAppend(es[..i], [Evaluate] + es[i + 1..]);
    EvaluationsAppend([Evaluate], es[i + 1..]);
    assert Evaluations([Evaluate]) == 1 by { assert [Evaluate][..0] == []; }
  }

  /** A trace that counts at most one evaluation has no two positions holding one. */
  lemma AtMostOneEvaluationIndex(es: seq<Event>)
    requires Evaluations(es) <= 1
    ensures forall j, i :: 0 <= j < i < |es| && es[j] == Evaluate ==> es[i] != Evaluate
  {
    forall j, i | 0 <= j < i < |es| && es[j] == Evaluate
      ensures es[i] != Evaluate
    {
      EvaluationCountedTwice(es, j, i);
    }
  }

  lemma EvaluationCountedTwice(es: seq<Event>, j: nat, i: nat)
    requires j < i < |es| && es[j] == Evaluate
    ensures es[i] == Evaluate ==> Evaluations(es) >= 2
  {
    if es[i] == Evaluate {
      EvaluationCounted(es, i);
      assert es[..i][j] == Evaluate;
      EvaluationCounted(es[..i], j);
    }
  }

  lemma {:induction false} CreationsAppend(a: seq<Event>, b: seq<Event>)
    ensures Creations(a + b) == Creations(a) + Creations(b)
    decreases |b|
  {
    if b != [] {
      assert (a + b)[..|a + b| - 1] == a + b[..|b| - 1];
      CreationsAppend(a, b[..|b| - 1]);
    } else {
      assert a + b == a;
    }
  }

  /** When the first evaluation passes, the retry guard adds nothing: no driver event, no second evaluation. */
  lemma RetryPassesThrough(s: Statement, oracle: Oracle, h: seq<Event>)
    requires Eval(s, oracle, h).outcome.Pass?
    ensures Eval(SauceRetry(s), oracle, h) == Eval(s, oracle, h)
  {
  }

  /**
   * A failure that does not name Sauce (or has no message) leaves the retry
   * guard through `Throwables.propagate`, with no driver event and no second
   * evaluation; an unchecked exception or error leaves it unchanged.
   */
  lemma RetryPropagatesOtherFailures(s: Statement, oracle: Oracle, h: seq<Event>)
    requires Eval(s, oracle, h).outcome.Fail?
    requires !IsSauceFailure(Eval(s, oracle, h).outcome.error)
    ensures Eval(SauceRetry(s), oracle, h).events == Eval(s, oracle, h).events
    ensures Eval(SauceRetry(s), oracle, h).outcome == Fail(Propagate(Eval(s, oracle, h).outcome.error))
    ensures IsUnchecked(Eval(s, oracle, h).outcome.error.kind) ==>
      Eval(SauceRetry(s), oracle, h).outcome == Eval(s, oracle, h).outcome
  {
  }

  /**
   * A Sauce failure followed by a successful driver creation emits exactly
   * `Remove, Create` and re-evaluates the statement once; whatever that
   * second evaluation yields is the outcome.
   */
  lemma RetryOnSauceFailure(s: Statement, oracle: Oracle, h: seq<Event>)
    requires Eval(s, oracle, h).outcome.Fail?
    requires IsSauceFailure(Eval(s, oracle, h).outcome.error)
    requires oracle.creation(Creations(h + Eval(s, oracle, h).events + [Remove])).Created?
    ensures var first := Eval(s, oracle, h);
            var second := Eval(s, oracle, h + first.events + [Remove, Create(true)]);
            Eval(SauceRetry(s), oracle, h) == Run(second.outcome, first.events + [Remove, Create(true)] + second.events)
  {
  }

  /**
   * When recreating the driver after a Sauce failure throws, the statement is
   * not re-evaluated and the outcome is the recovery failure wrapping that
   * error, not the original failure.
   */
  lemma RetryRecoveryFails(s: Statement, oracle: Oracle, h: seq<Event>)
    requires Eval(s, oracle, h).outcome.Fail?
    requires IsSauceFailure(Eval(s, oracle, h).outcome.error)
    requires oracle.creation(Creations(h + Eval(s, oracle, h).events + [Remove])).CreationFailed?
    ensures var first := Eval(s, oracle, h);
            var e := oracle.creation(Creations(h + first.events + [Remove])).error;
            Eval(SauceRetry(s), oracle, h) == Run(Fail(RecoveryFailure(e)), first.events + [Remove, Create(false)])
    ensures Evaluations(Eval(SauceRetry(s), oracle, h).events) == Evaluations(Eval(s, oracle, h).events)
  {
    var first := Eval(s, oracle, h);
    EvaluationsAppend(first.events, [Remove, Create(false)]);
    assert [Remove, Create(false)] == [Remove] + [Create(false)];
    EvaluationsAppend([Remove], [Create(false)]);
  }

  /** The no-driver-after guard keeps the inner outcome and removes the driver exactly once, last. */
  lemma NoDriverAfterRemovesOnce(s: Statement, oracle: Oracle, h: seq<Event>)
    ensures Eval(NoDriverAfter(s), oracle, h).outcome == Eval(s, oracle, h).outcome
    ensures Eval(NoDriverAfter(s), oracle, h).events == Eval(s, oracle, h).events + [Remove]
  {
  }

  /**
   * The fresh-driver guard removes the driver and creates one before the
   * inner statement; when creation throws, that error is the outcome and the
   * inner statement never runs.
   */
  lemma FreshDriverCreatesFirst(s: Statement, oracle: Oracle, h: seq<Event>)
    ensures var c := oracle.creation(Creations(h + [Remove]));
            c.CreationFailed? ==> Eval(FreshDriver(s), oracle, h) == Run(Fail(c.error), [Remove, Create(false)])
    ensures var c := oracle.creation(Creations(h + [Remove]));
            var r := Eval(s, oracle, h + [Remove, Create(true)]);
            c.Created? ==> Eval(FreshDriver(s), oracle, h) == Run(r.outcome, [Remove, Create(true)] + r.events)
  {
  }

  /**
   * The not-yet-implemented guard inverts the outcome exactly: any failure
   * becomes a pass, a pass becomes the "already works" exception; the events
   * are those of the inner statement.
   */
  lemma NotYetImplementedInverts(message: string, s: Statement, oracle: Oracle, h: seq<Event>)
    ensures Eval(NotYetImplemented(message, s), oracle, h).outcome.Pass? <==> Eval(s, oracle, h).outcome.Fail?
    ensures Eval(s, oracle, h).outcome.Pass? ==>
      Eval(NotYetImplemented(message, s), oracle, h).outcome == Fail(AlreadyWorks(message))
    ensures Eval(NotYetImplemented(message, s), oracle, h).events == Eval(s, oracle, h).events
  {
  }
}

=== FILE: strings.dfy ===
/**
 * The two `java.lang.String` queries the core relies on: `indexOf` and
 * `contains`, over strings modelled as `seq<char>`.
 */
module Strings {
  import opened Wrappers

  /** `p` occurs in `s` starting at index `i`. */
  predicate OccursAt(s: string, p: string, i: nat) {
    i + |p| <= |s| && s[i..i + |p|] == p
  }

  /** `s` starts with `p` (`String.startsWith`). */
  predicate StartsWith(s: string, p: string) {
    OccursAt(s, p, 0)
  }

  /** `String.indexOf(p, from)`: the first occurrence of `p` at or after `from`. */
  function IndexFrom(s: string, p: string, from: nat): (r: Option<nat>)
    requires from <= |s|
    ensures r.Some? ==> from <= r.value && OccursAt(s, p, r.value)
    ensures r.Some? ==> forall j :: from <= j < r.value ==> !OccursAt(s, p, j)
    ensures r.None? ==> forall j :: from <= j ==> !OccursAt(s, p, j)
    decreases |s| - from
  {
    if OccursAt(s, p, from) then Some(from)
    else if from == |s| then None
    else IndexFrom(s, p, from + 1)
  }

  /** `String.indexOf(p)`, with `None` for Java's `-1`. */
  function IndexOf(s: string, p: string): Option<nat> {
    IndexFrom(s, p, 0)
  }

  /** `String.contains(p)`, which Java defines as `indexOf(p) >= 0`. */
  predicate Contains(s: string, p: string) {
    IndexOf(s, p).Some?
  }

  /** `contains` holds exactly when there is some index where `p` occurs. */
  lemma ContainsIff(s: string, p: string)
    ensures Contains(s, p) <==> exists i :: OccursAt(s, p, i)
  {
  }

  /** `indexOf` returns the unique first occurrence. */
  lemma IndexOfIsFirst(s: string, p: string, k: nat)
    requires OccursAt(s, p, k)
    requires forall j :: 0 <= j < k ==> !OccursAt(s, p, j)
    ensures IndexOf(s, p) == Some(k)
  {
  }

  /** An occurrence of `p` implies `contains`. */
  lemma OccursAtContains(s: string, p: string, i: nat)
    requires OccursAt(s, p, i)
    ensures Contains(s, p)
  {
    ContainsIff(s, p);
  }
}

=== FILE: test_runner.dfy ===
/**
 * `SeleniumTestRunner.methodBlock` and the wrappers it applies to one test
 * method, over the statement semantics of `Statements`.
 */
module TestRunner {
  import opened Wrappers
  import opened Strings
  import opened Failures
  import opened Drivers
  import opened Statements
  import opened Guarantees

  /**
   * What the runner reads from a test method: the simple name of its
   * declaring class, its name, whether it carries `@NeedsFreshDriver` and
   * `@NoDriverAfterTest`, and the tags of its `@NotYetImplemented` (`None`
   * when absent).
   */
  datatype TestMethod = TestMethod(
    simpleClassName: string,
    name: string,
    needsFreshDriver: bool,
    noDriverAfterTest: bool,
    notYetImplemented: Option<seq<Driver>>)

  const MarkedPhrase := " is marked as not yet implemented with "
  const WorksPhrase := " but already works!"

  /** The configuration of the scenarios in this module: Firefox without marionette, run locally. */
  const LocalFirefox := Config(Some(Ff), false, false, false)

  /** A failed assertion: an `Error` without a message. */
  const AssertionFailure := Throwable("java.lang.AssertionError", Error, None, None)

  /** The failure of the Sauce scenarios in this module: a `RuntimeException("sauce timeout")`. */
  const SauceTimeout := Throwable(RuntimeExceptionClass, UncheckedException, Some("sauce timeout"), None)

  /** The message of the exception a not-yet-implemented test that passes throws. */
  function AlreadyWorksMessage(m: TestMethod, browser: Option<Browser>): (r: string)
    ensures StartsWith(r, m.simpleClassName + "." + m.name + MarkedPhrase)
    ensures OccursAt(r, m.name, |m.simpleClassName| + 1)
    ensures OccursAt(r, BrowserName(browser), |m.simpleClassName| + 1 + |m.name| + |MarkedPhrase|)
    ensures |r| == |m.simpleClassName| + 1 + |m.name| + |MarkedPhrase| + |BrowserName(browser)| + |WorksPhrase|
    ensures |r| >= |WorksPhrase| && r[|r| - |WorksPhrase|..] == WorksPhrase
  {
    var head := m.simpleClassName + "." + m.name + MarkedPhrase;
    var r := head + BrowserName(browser) + WorksPhrase;
    assert r[..|head|] == head;
    assert r[|m.simpleClassName| + 1..|m.simpleClassName| + 1 + |m.name|] == head[|m.simpleClassName| + 1..|m.simpleClassName| + 1 + |m.name|];
    r
  }

  /** `withNoDriverAfterTest`: the statement itself unless the method asks for it. */
  function WithNoDriverAfterTest(m: TestMethod, s: Statement): (r: Statement)
    ensures !m.noDriverAfterTest ==> r == s
    ensures m.noDriverAfterTest ==> forall o: Oracle, h: seq<Event> :: Eval(r, o, h) == Run(Eval(s, o, h).outcome, Eval(s, o, h).events + [Remove])
    ensures ReleasesDriver(s) ==> ReleasesDriver(r)
    ensures m.noDriverAfterTest ==> ReleasesDriver(r)
  {
    if m.noDriverAfterTest then NoDriverAfter(s) else s
  }

  /** `withFreshDriver`: the statement itself unless the method asks for it. */
  function WithFreshDriver(m: TestMethod, s: Statement): (r: Statement)
    ensures !m.needsFreshDriver ==> r == s
    ensures m.needsFreshDriver ==> forall o: Oracle, h: seq<Event> | o.creation(Creations(h + [Remove])).CreationFailed? ::
      Eval(r, o, h) == Run(Fail(o.creation(Creations(h + [Remove])).error), [Remove, Create(false)])
    ensures m.needsFreshDriver ==> forall o: Oracle, h: seq<Event> | o.creation(Creations(h + [Remove])).Created? ::
      Eval(r, o, h) == Run(Eval(s, o, h + [Remove, Create(true)]).outcome, [Remove, Create(true)] + Eval(s, o, h + [Remove, Create(true)]).events)
    ensures ReleasesDriver(r) == ReleasesDriver(s)
    ensures m.needsFreshDriver ==> StartsFresh(r)
  {
    if m.needsFreshDriver then FreshDriver(s) else s
  }

  /** `coveringUpSauceErrors`: always applied, to test instances that are a `JUnit4TestBase`. */
  function CoveringUpSauceErrors(s: Statement): (r: Statement)
    ensures r == SauceRetry(s)
    ensures MaxEvaluations(r) == 2 * MaxEvaluations(s)
    ensures ReleasesDriver(r) == ReleasesDriver(s) && StartsFresh(r) == StartsFresh(s)
  {
    SauceRetry(s)
  }

  /** `withNotYetImplemented`: the statement itself unless a declared tag matches the environment. */
  function WithNotYetImplemented(m: TestMethod, cfg: Config, s: Statement): (r: Statement)
    ensures !IsNotYetImplemented(m.notYetImplemented, cfg) ==> r == s
    ensures IsNotYetImplemented(m.notYetImplemented, cfg) ==> r == NotYetImplemented(AlreadyWorksMessage(m, cfg.browser), s)
    ensures MaxEvaluations(r) == MaxEvaluations(s)
  {
    if IsNotYetImplemented(m.notYetImplemented, cfg) then NotYetImplemented(AlreadyWorksMessage(m, cfg.browser), s)
    else s
  }

  /**
   * `methodBlock`: the framework stages, then (only for a `JUnit4TestBase`)
   * no-driver-after, fresh-driver and the Sauce retry, and outermost the
   * not-yet-implemented inversion.
   */
  function MethodBlock(m: TestMethod, isTestBase: bool, cfg: Config): (r: Statement)
    ensures isTestBase ==> MaxEvaluations(r) == 2
    ensures !isTestBase ==> MaxEvaluations(r) == 1
    ensures ReleasesDriver(r) <==> isTestBase && m.noDriverAfterTest
    ensures StartsFresh(r) <==> isTestBase && m.needsFreshDriver
  {
    var s := Stages;
    var s := if isTestBase then CoveringUpSauceErrors(WithFreshDriver(m, WithNoDriverAfterTest(m, s))) else s;
    WithNotYetImplemented(m, cfg, s)
  }

  /** A test instance that is not a `JUnit4TestBase` gets no driver events and no retry: the stages run once. */
  lemma PlainInstanceIsNotRetried(m: TestMethod, cfg: Config, oracle: Oracle, h: seq<Event>)
    ensures Eval(MethodBlock(m, false, cfg), oracle, h).events == [Evaluate]
    ensures !IsNotYetImplemented(m.notYetImplemented, cfg) ==>
      Eval(MethodBlock(m, false, cfg), oracle, h).outcome == oracle.stages(Evaluations(h))
  {
  }

  /**
   * The not-yet-implemented inversion is outermost: it inverts the outcome
   * the whole chain, Sauce retry included, would have had without it, and
   * does not change what the chain does to the driver.
   */
  lemma InversionIsOutermost(m: TestMethod, isTestBase: bool, cfg: Config, oracle: Oracle, h: seq<Event>)
    requires IsNotYetImplemented(m.notYetImplemented, cfg)
    ensures var plain := Eval(MethodBlock(m.(notYetImplemented := None), isTestBase, cfg), oracle, h);
            var marked := Eval(MethodBlock(m, isTestBase, cfg), oracle, h);
            && marked.events == plain.events
            && (marked.outcome.Pass? <==> plain.outcome.Fail?)
            && (plain.outcome.Pass? ==> marked.outcome == Fail(AlreadyWorks(AlreadyWorksMessage(m, cfg.browser))))
  {
  }

  /** One test method evaluates the framework stages at most twice, and at most once without a `JUnit4TestBase`. */
  lemma AtMostOneRetry(m: TestMethod, isTestBase: bool, cfg: Config, oracle: Oracle, h: seq<Event>)
    ensures Evaluations(Eval(MethodBlock(m, isTestBase, cfg), oracle, h).events) <= if isTestBase then 2 else 1
  {
    EvaluationsBounded(MethodBlock(m, isTestBase, cfg), oracle, h);
  }

  /** `@NoDriverAfterTest` on a `JUnit4TestBase` leaves no driver behind on any exit path. */
  lemma NoDriverAfterTestReleases(m: TestMethod, cfg: Config, oracle: Oracle, h: seq<Event>)
    requires m.noDriverAfterTest
    ensures DriverReleased(Eval(MethodBlock(m, true, cfg), oracle, h).events)
  {
    NoDriverLeftBehind(MethodBlock(m, true, cfg), oracle, h);
  }

  /** `@NeedsFreshDriver` on a `JUnit4TestBase`: every evaluation of the stages, retry included, runs right after a successful driver creation. */
  lemma NeedsFreshDriverRecreates(m: TestMethod, cfg: Config, oracle: Oracle, h: seq<Event>)
    requires m.needsFreshDriver
    ensures OnFreshDriver(Eval(MethodBlock(m, true, cfg), oracle, h).events)
  {
    RetryRunsOnNewDriver(MethodBlock(m, true, cfg), oracle, h);
  }

  /** The guards one attempt of a `JUnit4TestBase` test runs under, without the retry around them. */
  function Attempt(m: TestMethod): Statement {
    WithFreshDriver(m, WithNoDriverAfterTest(m, Stages))
  }

  lemma AttemptIsGuarded(m: TestMethod, oracle: Oracle, h: seq<Event>)
    ensures m.noDriverAfterTest ==> EvaluationsFollowedByRemove(Eval(Attempt(m), oracle, h).events)
    ensures m.needsFreshDriver ==> EvaluationsAfterFreshGuard(Eval(Attempt(m), oracle, h).events)
  {
    var es := Eval(Attempt(m), oracle, h).events;
    var body := AttemptEvents(m, oracle, h);
    if m.needsFreshDriver && oracle.creation(Creations(h + [Remove])).Created? {
      assert es == [Remove, Create(true)] + body;
      assert es[2] == Evaluate && es[0] == Remove && es[1] == Create(true);
      assert forall i :: 0 <= i < |es| && es[i] == Evaluate ==> i == 2;
    } else if m.needsFreshDriver {
      assert es == [Remove, Create(false)];
    } else {
      assert es == body;
      assert forall i :: 0 <= i < |es| && es[i] == Evaluate ==> i == 0;
    }
  }

  /** The events of one attempt's guarded stages, and of the whole attempt. */
  lemma AttemptEvents(m: TestMethod, oracle: Oracle, h: seq<Event>) returns (body: seq<Event>)
    ensures body == if m.noDriverAfterTest then [Evaluate, Remove] else [Evaluate]
    ensures m.needsFreshDriver && oracle.creation(Creations(h + [Remove])).Created? ==>
      Eval(Attempt(m), oracle, h).events == [Remove, Create(true)] + body
    ensures m.needsFreshDriver && oracle.creation(Creations(h + [Remove])).CreationFailed? ==>
      Eval(Attempt(m), oracle, h).events == [Remove, Create(false)]
    ensures !m.needsFreshDriver ==> Eval(Attempt(m), oracle, h).events == body
  {
    var inner := WithNoDriverAfterTest(m, Stages);
    body := if m.noDriverAfterTest then [Evaluate, Remove] else [Evaluate];
    assert Eval(inner, oracle, h + [Remove, Create(true)]).events == body;
    assert Eval(inner, oracle, h).events == body;
  }

  /** The events of one attempt that reached the stages: its fresh driver, the evaluation, the release. */
  function GuardedRun(m: TestMethod): seq<Event> {
    (if m.needsFreshDriver then [Remove, Create(true)] else []) + (if m.noDriverAfterTest then [Evaluate, Remove] else [Evaluate])
  }

  /** An attempt evaluates the stages at most once, and when it does its events are the guarded run. */
  lemma AttemptEvaluatesAtMostOnce(m: TestMethod, oracle: Oracle, h: seq<Event>)
    ensures Evaluations(Eval(Attempt(m), oracle, h).events) <= 1
    ensures Evaluations(Eval(Attempt(m), oracle, h).events) == 1 ==> Eval(Attempt(m), oracle, h).events == GuardedRun(m)
  {
    var body := AttemptEvents(m, oracle, h);
    var prefix: seq<Event> := if m.needsFreshDriver then [Remove, Create(true)] else [];
    NoEvaluationCountsZero(prefix);
    NoEvaluationCountsZero(body[1..]);
    assert body == [Evaluate] + body[1..];
    EvaluationsAppend([Evaluate], body[1..]);
    assert Evaluations([Evaluate]) == 1 by { assert [Evaluate][..0] == []; }
    EvaluationsAppend(prefix, body);
    if m.needsFreshDriver && oracle.creation(Creations(h + [Remove])).CreationFailed? {
      NoEvaluationCountsZero([Remove, Create(false)]);
    } else if !m.needsFreshDriver {
      assert [] + body == body;
    }
  }

  /**
   * Each attempt, the retried one included, runs under its own lifecycle
   * guards: the stages are evaluated at most twice, and twice only as two
   * complete guarded runs around the recovery's `Remove, Create(true)`.
   */
  lemma TwoEvaluationsAreTwoGuardedAttempts(m: TestMethod, cfg: Config, oracle: Oracle, h: seq<Event>)
    ensures Evaluations(Eval(MethodBlock(m, true, cfg), oracle, h).events) <= 2
    ensures Evaluations(Eval(MethodBlock(m, true, cfg), oracle, h).events) == 2 ==>
      Eval(MethodBlock(m, true, cfg), oracle, h).events == GuardedRun(m) + [Remove, Create(true)] + GuardedRun(m)
  {
    var a := Attempt(m);
    var events := Eval(SauceRetry(a), oracle, h).events;
    assert Eval(MethodBlock(m, true, cfg), oracle, h).events == events by {
      if IsNotYetImplemented(m.notYetImplemented, cfg) {
        NotYetImplementedInverts(AlreadyWorksMessage(m, cfg.browser), SauceRetry(a), oracle, h);
      }
    }
    var first := Eval(a, oracle, h);
    AttemptEvaluatesAtMostOnce(m, oracle, h);
    if first.outcome.Fail? {
      var recovery := DealWithSauceFailure(first.outcome.error, oracle, h + first.events);
      assert Evaluate !in recovery.events;
      NoEvaluationCountsZero(recovery.events);
      EvaluationsAppend(first.events, recovery.events);
      if recovery.Retry? {
        var h2 := h + first.events + recovery.events;
        AttemptEvaluatesAtMostOnce(m, oracle, h2);
        EvaluationsAppend(first.events + recovery.events, Eval(a, oracle, h2).events);
      }
    }
  }

  /** In two guarded runs around a recovery, the order of the events shows where each guard sits. */
  lemma GuardedPairIsOrdered(m: TestMethod)
    ensures m.noDriverAfterTest ==> ReleasedBeforeRecovery(GuardedRun(m) + [Remove, Create(true)] + GuardedRun(m))
    ensures m.needsFreshDriver ==> RecreatedTwiceBeforeRetry(GuardedRun(m) + [Remove, Create(true)] + GuardedRun(m))
  {
    var g := GuardedRun(m);
    if m.needsFreshDriver && m.noDriverAfterTest {
      assert g == [Remove, Create(true), Evaluate, Remove];
      BothGuardsPairOrdered(g);
    } else if m.needsFreshDriver {
      assert g == [Remove, Create(true), Evaluate];
      FreshGuardPairOrdered(g);
    } else if m.noDriverAfterTest {
      assert g == [Evaluate, Remove];
      NoDriverGuardPairOrdered(g);
    }
  }

  lemma BothGuardsPairOrdered(g: seq<Event>)
    requires g == [Remove, Create(true), Evaluate, Remove]
    ensures ReleasedBeforeRecovery(g + [Remove, Create(true)] + g) && RecreatedTwiceBeforeRetry(g + [Remove, Create(true)] + g)
  {
    var es := g + [Remove, Create(true)] + g;
    assert es == [Remove, Create(true), Evaluate, Remove, Remove, Create(true), Remove, Create(true), Evaluate, Remove];
    assert forall i :: 0 <= i < |es| && es[i] == Evaluate ==> i == 2 || i == 8;
    assert es[3..5] == [Remove, Remove] && es[4..8] == [Remove, Create(true), Remove, Create(true)];
    EvaluatedAt(es, 2, 8);
  }

  lemma FreshGuardPairOrdered(g: seq<Event>)
    requires g == [Remove, Create(true), Evaluate]
    ensures RecreatedTwiceBeforeRetry(g + [Remove, Create(true)] + g)
  {
    var es := g + [Remove, Create(true)] + g;
    assert es == [Remove, Create(true), Evaluate, Remove, Create(true), Remove, Create(true), Evaluate];
    assert forall i :: 0 <= i < |es| && es[i] == Evaluate ==> i == 2 || i == 7;
    assert es[3..7] == [Remove, Create(true), Remove, Create(true)];
    EvaluatedAt(es, 2, 7);
  }

  lemma NoDriverGuardPairOrdered(g: seq<Event>)
    requires g == [Evaluate, Remove]
    ensures ReleasedBeforeRecovery(g + [Remove, Create(true)] + g)
  {
    var es := g + [Remove, Create(true)] + g;
    assert es == [Evaluate, Remove, Remove, Create(true), Evaluate, Remove];
    assert forall i :: 0 <= i < |es| && es[i] == Evaluate ==> i == 0 || i == 4;
    assert es[1..3] == [Remove, Remove];
    EvaluatedAt(es, 0, 4);
  }

  /** A trace whose only evaluations are at `a` and `b` satisfies the two-evaluation predicates as its events there do. */
  lemma EvaluatedAt(es: seq<Event>, a: nat, b: nat)
    requires a < b < |es|
    requires forall i :: 0 <= i < |es| && es[i] == Evaluate ==> i == a || i == b
    ensures a + 3 <= |es| && es[a + 1..a + 3] == [Remove, Remove] ==> ReleasedBeforeRecovery(es)
    ensures 4 <= b && es[b - 4..b] == [Remove, Create(true), Remove, Create(true)] ==> RecreatedTwiceBeforeRetry(es)
  {
    forall j, i | 0 <= j < i < |es| && es[j] == Evaluate && es[i] == Evaluate
      ensures j == a && i == b
    {
    }
  }

  /**
   * The lifecycle guards sit inside the Sauce retry, so each attempt, the
   * retried one included, gets its own. Under `@NoDriverAfterTest` every
   * evaluation is immediately followed by a removal, and an evaluation that
   * is retried by two removals (its own guard's, then the recovery's). Under
   * `@NeedsFreshDriver` every evaluation immediately follows a removal and a
   * successful creation, and a retried one two such pairs (the recovery's,
   * then its own guard's).
   */
  lemma EveryAttemptHasItsOwnGuards(m: TestMethod, cfg: Config, oracle: Oracle, h: seq<Event>)
    ensures m.noDriverAfterTest ==> EvaluationsFollowedByRemove(Eval(MethodBlock(m, true, cfg), oracle, h).events)
    ensures m.needsFreshDriver ==> EvaluationsAfterFreshGuard(Eval(MethodBlock(m, true, cfg), oracle, h).events)
    ensures m.noDriverAfterTest ==> ReleasedBeforeRecovery(Eval(MethodBlock(m, true, cfg), oracle, h).events)
    ensures m.needsFreshDriver ==> RecreatedTwiceBeforeRetry(Eval(MethodBlock(m, true, cfg), oracle, h).events)
  {
    EachAttemptGuarded(m, cfg, oracle, h);
    var es := Eval(MethodBlock(m, true, cfg), oracle, h).events;
    TwoEvaluationsAreTwoGuardedAttempts(m, cfg, oracle, h);
    if Evaluations(es) == 2 {
      GuardedPairIsOrdered(m);
    } else {
      AtMostOneEvaluationIndex(es);
    }
  }

  /**
   * The two-evaluation predicates tell the order of the wrappers apart: with
   * the Sauce retry innermost instead, a Sauce failure followed by a pass
   * violates both.
   */
  lemma RetryInsideGuardsIsDistinguished(oracle: Oracle)
    requires oracle.stages(0) == Fail(SauceTimeout) && oracle.stages(1) == Pass
    requires forall k :: oracle.creation(k) == Created
    ensures !ReleasedBeforeRecovery(Eval(NoDriverAfter(FreshDriver(SauceRetry(Stages))), oracle, []).events)
    ensures !RecreatedTwiceBeforeRetry(Eval(NoDriverAfter(FreshDriver(SauceRetry(Stages))), oracle, []).events)
  {
    InnermostRetryTrace(oracle);
    RetryInsideGuardsTraceBreaksOrder([Remove, Create(true), Evaluate, Remove, Create(true), Evaluate, Remove]);
  }

  /** The trace of the retry-innermost statement on a Sauce failure and a pass. */
  lemma InnermostRetryTrace(oracle: Oracle)
    requires oracle.stages(0) == Fail(SauceTimeout) && oracle.stages(1) == Pass
    requires forall k :: oracle.creation(k) == Created
    ensures Eval(NoDriverAfter(FreshDriver(SauceRetry(Stages))), oracle, []).events
      == [Remove, Create(true), Evaluate, Remove, Create(true), Evaluate, Remove]
  {
    var h := [Remove, Create(true)];
    assert Creations([] + [Remove]) == 0 by { assert ([] + [Remove])[..0] == []; }
    NoEvaluationCountsZero([] + h);
    assert Eval(Stages, oracle, [] + h) == Run(Fail(SauceTimeout), [Evaluate]);
    SauceTimeoutIsTransient();
    assert Evaluations(h + [Evaluate] + [Remove, Create(true)]) == 1 by {
      NoEvaluationCountsZero(h);
      NoEvaluationCountsZero([Remove, Create(true)]);
      EvaluationsAppend(h, [Evaluate]);
      EvaluationsAppend(h + [Evaluate], [Remove, Create(true)]);
      assert Evaluations([Evaluate]) == 1 by { assert [Evaluate][..0] == []; }
    }
    RetryOnSauceFailure(Stages, oracle, [] + h);
  }

  lemma RetryInsideGuardsTraceBreaksOrder(es: seq<Event>)
    requires es == [Remove, Create(true), Evaluate, Remove, Create(true), Evaluate, Remove]
    ensures !ReleasedBeforeRecovery(es) && !RecreatedTwiceBeforeRetry(es)
  {
    assert es[2] == Evaluate && es[5] == Evaluate;
    assert es[3..5][1] == Create(true);
    assert es[1..5][0] == Create(true);
  }

  /** Each evaluation carries the guards of the attempt it belongs to. */
  lemma EachAttemptGuarded(m: TestMethod, cfg: Config, oracle: Oracle, h: seq<Event>)
    ensures m.noDriverAfterTest ==> EvaluationsFollowedByRemove(Eval(MethodBlock(m, true, cfg), oracle, h).events)
    ensures m.needsFreshDriver ==> EvaluationsAfterFreshGuard(Eval(MethodBlock(m, true, cfg), oracle, h).events)
  {
    var a := Attempt(m);
    var events := Eval(SauceRetry(a), oracle, h).events;
    assert Eval(MethodBlock(m, true, cfg), oracle, h).events == events by {
      if IsNotYetImplemented(m.notYetImplemented, cfg) {
        NotYetImplementedInverts(AlreadyWorksMessage(m, cfg.browser), SauceRetry(a), oracle, h);
      }
    }
    var first := Eval(a, oracle, h);
    AttemptIsGuarded(m, oracle, h);
    if first.outcome.Fail? {
      var recovery := DealWithSauceFailure(first.outcome.error, oracle, h + first.events);
      assert Evaluate !in recovery.events;
      if m.noDriverAfterTest {
        FollowedByRemoveAppend(first.events, recovery.events);
      }
      if m.needsFreshDriver {
        AfterFreshGuardAppend(first.events, recovery.events);
      }
      if recovery.Retry? {
        var h2 := h + first.events + recovery.events;
        AttemptIsGuarded(m, oracle, h2);
        if m.noDriverAfterTest {
          FollowedByRemoveAppend(first.events + recovery.events, Eval(a, oracle, h2).events);
        }
        if m.needsFreshDriver {
          AfterFreshGuardAppend(first.events + recovery.events, Eval(a, oracle, h2).events);
        }
      }
    }
  }

  /**
   * With both annotations, a Sauce failure and a passing retry: the first
   * attempt releases its driver before recovery, recovery recreates it, and
   * the retried attempt again removes, creates and finally releases.
   */
  lemma BothGuardsAroundSauceRetry(m: TestMethod, cfg: Config, oracle: Oracle)
    requires m.needsFreshDriver && m.noDriverAfterTest && m.notYetImplemented.None?
    requires oracle.stages(0) == Fail(SauceTimeout) && oracle.stages(1) == Pass
    requires forall k :: oracle.creation(k) == Created
    ensures Eval(MethodBlock(m, true, cfg), oracle, [])
      == Run(Pass, [Remove, Create(true), Evaluate, Remove, Remove, Create(true), Remove, Create(true), Evaluate, Remove])
  {
    var attempt := [Remove, Create(true), Evaluate, Remove];
    UnmarkedBlockIsRetriedAttempt(m, cfg);
    SauceThenPassAttempts(m, oracle);
    SauceRetryOfTwoAttempts(Attempt(m), oracle, attempt);
    assert attempt + [Remove, Create(true)] + attempt
      == [Remove, Create(true), Evaluate, Remove, Remove, Create(true), Remove, Create(true), Evaluate, Remove];
  }

  /** The two attempts of the scenario above, each under both guards. */
  lemma SauceThenPassAttempts(m: TestMethod, oracle: Oracle)
    requires m.needsFreshDriver && m.noDriverAfterTest
    requires oracle.stages(0) == Fail(SauceTimeout) && oracle.stages(1) == Pass
    requires forall k :: oracle.creation(k) == Created
    ensures Eval(Attempt(m), oracle, []) == Run(Fail(SauceTimeout), [Remove, Create(true), Evaluate, Remove])
    ensures Eval(Attempt(m), oracle, [Remove, Create(true), Evaluate, Remove] + [Remove, Create(true)])
      == Run(Pass, [Remove, Create(true), Evaluate, Remove])
  {
    var attempt := [Remove, Create(true), Evaluate, Remove];
    OneEvaluationBeforeRetry(attempt, [Remove, Create(true)]);
    GuardedAttempt(m, oracle, []);
    GuardedAttempt(m, oracle, attempt + [Remove, Create(true)]);
  }

  /** Without `@NotYetImplemented`, a `JUnit4TestBase` test runs its guarded attempt under the Sauce retry. */
  lemma UnmarkedBlockIsRetriedAttempt(m: TestMethod, cfg: Config)
    requires m.notYetImplemented.None?
    ensures MethodBlock(m, true, cfg) == SauceRetry(Attempt(m))
  {
  }

  /** A Sauce timeout on the first attempt and a pass on the second: the retry's trace is both attempts around one recreation. */
  lemma SauceRetryOfTwoAttempts(a: Statement, oracle: Oracle, attempt: seq<Event>)
    requires Eval(a, oracle, []) == Run(Fail(SauceTimeout), attempt)
    requires oracle.creation(Creations(attempt + [Remove])).Created?
    requires Eval(a, oracle, attempt + [Remove, Create(true)]) == Run(Pass, attempt)
    ensures Eval(SauceRetry(a), oracle, []) == Run(Pass, attempt + [Remove, Create(true)] + attempt)
  {
    SauceTimeoutIsTransient();
    assert [] + attempt == attempt;
    RetryOnSauceFailure(a, oracle, []);
  }

  /** Before the retried attempt's evaluation, the stages have been evaluated exactly once; before the first, never. */
  lemma OneEvaluationBeforeRetry(attempt: seq<Event>, guard: seq<Event>)
    requires attempt == [Remove, Create(true), Evaluate, Remove] && guard == [Remove, Create(true)]
    ensures Evaluations([] + guard) == 0
    ensures Evaluations(attempt + guard + guard) == 1
  {
    NoEvaluationCountsZero(guard);
    assert [] + guard == guard;
    NoEvaluationCountsZero([Remove] + guard + guard);
    EvaluationsAppend(guard, [Evaluate]);
    EvaluationsAppend(guard + [Evaluate], [Remove] + guard + guard);
    assert attempt + guard + guard == guard + [Evaluate] + ([Remove] + guard + guard);
    assert Evaluations([Evaluate]) == 1 by { assert [Evaluate][..0] == []; }
  }

  /** One attempt under both guards, when the driver is created: remove, create, evaluate, remove. */
  lemma GuardedAttempt(m: TestMethod, oracle: Oracle, h: seq<Event>)
    requires m.needsFreshDriver && m.noDriverAfterTest
    requires oracle.creation(Creations(h + [Remove])).Created?
    ensures Eval(Attempt(m), oracle, h)
      == Run(oracle.stages(Evaluations(h + [Remove, Create(true)])), [Remove, Create(true), Evaluate, Remove])
  {
  }

  /**
   * With both annotations, a failed fresh-driver creation whose error does
   * not name Sauce is the outcome, through `Throwables.propagate`, and no
   * removal follows it: the no-driver-after guard is inside the
   * fresh-driver guard, so it never started.
   */
  lemma FreshCreationFailureIsNotFollowedByRemoval(m: TestMethod, cfg: Config, oracle: Oracle, e: Throwable)
    requires m.needsFreshDriver && m.noDriverAfterTest && m.notYetImplemented.None?
    requires oracle.creation(0) == CreationFailed(e) && !IsSauceFailure(e)
    ensures Eval(MethodBlock(m, true, cfg), oracle, []) == Run(Fail(Propagate(e)), [Remove, Create(false)])
  {
    UnmarkedBlockIsRetriedAttempt(m, cfg);
    assert Creations([] + [Remove]) == 0 by { assert ([] + [Remove])[..0] == []; }
    assert Eval(Attempt(m), oracle, []) == Run(Fail(e), [Remove, Create(false)]);
    RetryPropagatesOtherFailures(Attempt(m), oracle, []);
  }

  /**
   * The fresh-driver guard is inside the Sauce retry, so a driver creation
   * that fails with a message naming Sauce is itself retried: the recovery
   * creates a driver, and the retried attempt replaces it before the stages
   * run for the first time.
   */
  lemma SauceNamedCreationFailureIsRetried(m: TestMethod, cfg: Config, oracle: Oracle, e: Throwable)
    requires m.needsFreshDriver && m.noDriverAfterTest && m.notYetImplemented.None?
    requires oracle.creation(0) == CreationFailed(e) && IsSauceFailure(e)
    requires oracle.creation(1).Created? && oracle.creation(2).Created?
    ensures Eval(MethodBlock(m, true, cfg), oracle, [])
      == Run(oracle.stages(0), [Remove, Create(false), Remove, Create(true), Remove, Create(true), Evaluate, Remove])
  {
    var first := [Remove, Create(false)];
    var h2 := first + [Remove, Create(true)];
    UnmarkedBlockIsRetriedAttempt(m, cfg);
    FailedCreationCounts();
    assert Eval(Attempt(m), oracle, []) == Run(Fail(e), first);
    assert [] + first + [Remove] == [Remove, Create(false), Remove];
    RetryOnSauceFailure(Attempt(m), oracle, []);
    assert [] + first + [Remove, Create(true)] == h2;
    assert h2 + [Remove] == [Remove, Create(false), Remove, Create(true), Remove];
    assert h2 + [Remove, Create(true)] == [Remove, Create(false), Remove, Create(true), Remove, Create(true)];
    GuardedAttempt(m, oracle, h2);
    assert h2 + [Remove, Create(true), Evaluate, Remove]
      == [Remove, Create(false), Remove, Create(true), Remove, Create(true), Evaluate, Remove];
  }

  /** Creations and evaluations counted along the trace of a failed creation and its recovery. */
  lemma FailedCreationCounts()
    ensures Creations([] + [Remove]) == 0
    ensures Creations([Remove, Create(false), Remove]) == 1
    ensures Creations([Remove, Create(false), Remove, Create(true), Remove]) == 2
    ensures Evaluations([Remove, Create(false), Remove, Create(true), Remove, Create(true)]) == 0
  {
    assert ([] + [Remove])[..0] == [];
    var t := [Remove, Create(false), Remove, Create(true), Remove, Create(true)];
    assert t[..5] == [Remove, Create(false), Remove, Create(true), Remove];
    assert t[..5][..4] == [Remove, Create(false), Remove, Create(true)];
    assert t[..5][..4][..3] == [Remove, Create(false), Remove];
    assert t[..5][..4][..3][..2] == [Remove, Create(false)];
    assert t[..5][..4][..3][..2][..1] == [Remove];
    assert [Remove][..0] == [];
    NoEvaluationCountsZero(t);
  }

  /**
   * The development-mode default reaches the tag policy and the message:
   * with no browser detected, a `FIREFOX`-marked test is marked in dev mode
   * (without marionette) and its message names `ff`; outside dev mode the
   * browser stays `null` and the mark does not apply.
   */
  lemma DevModeDefaultIsFirefox(m: TestMethod, remote: bool, sauce: bool)
    requires m.notYetImplemented == Some([Firefox])
    ensures IsNotYetImplemented(m.notYetImplemented, Config(ResolveBrowser(None, true), false, remote, sauce))
    ensures OccursAt(AlreadyWorksMessage(m, ResolveBrowser(None, true)), "ff", |m.simpleClassName| + 1 + |m.name| + |MarkedPhrase|)
    ensures !IsNotYetImplemented(m.notYetImplemented, Config(ResolveBrowser(None, false), false, remote, sauce))
    ensures OccursAt(AlreadyWorksMessage(m, ResolveBrowser(None, false)), "null", |m.simpleClassName| + 1 + |m.name| + |MarkedPhrase|)
  {
  }

  /** A test declared not yet implemented on `FIREFOX` that fails on Firefox is reported as passing. */
  lemma ExpectedFailureOnFirefoxPasses(m: TestMethod, isTestBase: bool)
    requires m.notYetImplemented == Some([Firefox])
    ensures Eval(MethodBlock(m, isTestBase, LocalFirefox), Oracle(k => Fail(AssertionFailure), k => Created), []).outcome == Pass
  {
  }

  /** The same test passing on Firefox fails with the "already works" message naming the method and browser. */
  lemma FirefoxTestThatWorksIsReported(m: TestMethod, isTestBase: bool)
    requires m.notYetImplemented == Some([Firefox])
    ensures var r := Eval(MethodBlock(m, isTestBase, LocalFirefox), Oracle(k => Pass, k => Created), []);
            && r.outcome.Fail?
            && r.outcome.error.message == Some(m.simpleClassName + "." + m.name + MarkedPhrase + "ff" + WorksPhrase)
  {
  }

  lemma SauceTimeoutIsTransient()
    ensures IsSauceFailure(SauceTimeout)
  {
    assert "sauce timeout" == "sauce" + " timeout";
    OccursAtContains("sauce timeout", "sauce", 0);
  }

  /** The retry guard only knows "sauce" and "Sauce": an upper-case "SAUCE" is not transient. */
  lemma UpperCaseSauceIsNotTransient(kind: Kind)
    ensures !IsSauceFailure(Throwable(RuntimeExceptionClass, kind, Some("SAUCE"), None))
  {
    ContainsIff("SAUCE", "sauce");
    ContainsIff("SAUCE", "Sauce");
    forall i: nat ensures !OccursAt("SAUCE", "sauce", i) && !OccursAt("SAUCE", "Sauce", i) {
      if i == 0 {
        assert "SAUCE"[0..5][0] != "sauce"[0];
        assert "SAUCE"[0..5][1] != "Sauce"[1];
      }
    }
  }

  /** A plain test hit by "sauce timeout" is retried once on a new driver and passes when the retry does. */
  lemma SauceTimeoutRetriedAndPasses(m: TestMethod, cfg: Config)
    requires m == TestMethod("T", "t", false, false, None)
    ensures Eval(MethodBlock(m, true, cfg), Oracle(k => if k == 0 then Fail(SauceTimeout) else Pass, k => Created), [])
      == Run(Pass, [Evaluate, Remove, Create(true), Evaluate])
  {
    SauceTimeoutIsTransient();
    var oracle := Oracle(k => if k == 0 then Fail(SauceTimeout) else Pass, k => Created);
    RetryOnSauceFailure(Stages, oracle, []);
    assert [] + [Evaluate] + [Remove, Create(true)] == [Evaluate, Remove, Create(true)];
    assert Evaluations([Evaluate, Remove, Create(true)]) == 1 by {
      assert [Evaluate, Remove, Create(true)][..2] == [Evaluate, Remove];
      assert [Evaluate, Remove][..1] == [Evaluate];
      assert [Evaluate][..0] == [];
    }
  }

  /** When the driver cannot be recreated after "sauce timeout", the recovery failure replaces the original. */
  lemma SauceRecoveryFailureIsFatal(m: TestMethod, cfg: Config, e: Throwable)
    requires m == TestMethod("T", "t", false, false, None)
    requires IsException(e.kind)
    ensures var r := Eval(MethodBlock(m, true, cfg), Oracle(k => Fail(SauceTimeout), k => CreationFailed(e)), []);
            && r.outcome.Fail?
            && r.outcome.error.message == Some(RecoveryMessage)
            && r.outcome.error.cause == Some(e)
            && r.events == [Evaluate, Remove, Create(false)]
  {
    var oracle := Oracle(k => Fail(SauceTimeout), k => CreationFailed(e));
    assert MethodBlock(m, true, cfg) == SauceRetry(Stages);
    assert Eval(Stages, oracle, []) == Run(Fail(SauceTimeout), [Evaluate]);
    SauceTimeoutIsTransient();
    RetryRecoveryFails(Stages, oracle, []);
    assert [Evaluate] + [Remove, Create(false)] == [Evaluate, Remove, Create(false)];
  }

  /** An "SAUCE" failure propagates unchanged after a single evaluation. */
  lemma UpperCaseSauceFailurePropagates(m: TestMethod, cfg: Config)
    requires m == TestMethod("T", "t", false, false, None)
    ensures var t := Throwable(RuntimeExceptionClass, UncheckedException, Some("SAUCE"), None);
            Eval(MethodBlock(m, true, cfg), Oracle(k => Fail(t), k => Created), []) == Run(Fail(t), [Evaluate])
  {
    var t := Throwable(RuntimeExceptionClass, UncheckedException, Some("SAUCE"), None);
    UpperCaseSauceIsNotTransient(UncheckedException);
    RetryPropagatesOtherFailures(Stages, Oracle(k => Fail(t), k => Created), []);
  }

  /**
   * Because the inversion sits outside the retry, a not-yet-implemented test
   * whose first run hits Sauce and whose retry passes is reported as already
   * working.
   */
  lemma RetriedPassIsSeenByInversion(m: TestMethod)
    requires m == TestMethod("T", "t", false, false, Some([All]))
    ensures var r := Eval(MethodBlock(m, true, LocalFirefox), Oracle(k => if k == 0 then Fail(SauceTimeout) else Pass, k => Created), []);
            r.outcome == Fail(AlreadyWorks(AlreadyWorksMessage(m, Some(Ff))))
  {
    assert TagMatches(All, LocalFirefox);
    var oracle := Oracle(k => if k == 0 then Fail(SauceTimeout) else Pass, k => Created);
    SauceTimeoutRetriedAndPasses(m.(notYetImplemented := None), LocalFirefox);
    InversionIsOutermost(m, true, LocalFirefox, oracle, []);
  }
}

=== FILE: wrappers.dfy ===
/** The optional value used wherever the source uses a nullable reference. */
module Wrappers {

  datatype Option<+T> = None | Some(value: T)
}
